=== FILE: README.md ===
# glfw_viewer: event routing and lifecycle of the Viewer

This project is a Dafny model of the `Viewer` class of glfw_viewer, a small
host for an interactive window. The viewer owns the native window. It keeps
the mouse and scroll state. It offers every input event to an ordered list of
plugins and then to optional legacy callbacks. It draws frames around one
external draw action and runs the frame loop. The model covers:

- **Chain-with-fallback dispatch** (`key_pressed/down/up/repeat`,
  `mouse_down/up/move/scroll`). Plugins are offered the event in registration
  order. Dispatch stops at the first plugin that returns `true`. The legacy
  callback runs only when no plugin consumed the event.
- **Broadcast dispatch** (`post_resize`, `init_plugins`, `shutdown_plugins`).
  Every plugin is called, in order, whatever it returns.
- **Draw order.** A pre-draw stage, then the draw action, then a post-draw
  stage. A consuming pre-draw plugin stops only the other pre-draw plugins.
- **Density reconciliation.** Each frame, `draw` recomputes `highdpi` as
  framebuffer width over window width. When the value changes, it broadcasts
  a resize with the framebuffer size and stores the new value.
- **Frame-loop scheduling.** The loop draws `first = true` once only. While
  not animating, it polls for five frames after each wait and then waits once.
  With `loop = false` it stops after one iteration. Otherwise it stops when the
  window's should-close flag is set.
- **Start-up and shutdown.** This covers the exit codes of `launch_init`, the
  default window size, the initial resize, `init()` and its cancelling
  callback, `launch_shut`, and how `launch` composes them.
- **The native adapters.** These map GLFW mouse buttons and key actions onto
  the dispatchers. An Escape press closes the window whatever the dispatch
  returns.

Plugins, callbacks and the windowing layer are inputs, not code:

- A `Reply` gives what each plugin and the legacy callback answer to one
  dispatch.
- An `InitEnv` gives what the windowing layer reports during start-up.
- A `Frame` gives what it reports during one loop iteration: sizes,
  draw-hook answers, and the native events delivered while polling or
  waiting.

Each dispatch returns the hook calls it made, in order, as a list of `Call`
values. The pure modules (`Dispatch`, `Dpi`, `Schedule`) define the protocols
as functions and prove their properties. The methods of `ViewerModel.Viewer`
run the source's loops and are proved against those functions.

Files: `Wrappers.dfy` (Option), `Hooks.dfy` (enumerations, hooks, events,
calls), `Dispatch.dfy`, `Dpi.dfy`, `Schedule.dfy`, `Viewer.dfy`.

### Behaviour of the code worth noting

- `mouse_down` returns early when a plugin or the callback consumes the press
  (src/viewer/Viewer.cpp:435-449). So `down` and `Rotation` are set only when
  nothing consumed it. The down position is recorded first, in every case.
- `mouse_up` clears `down` before dispatching, but returns early when the
  release is consumed (src/viewer/Viewer.cpp:478-494). So `mouse_mode` is reset
  to `None` only when nothing consumed it.
- In the key dispatchers, a callback answer of `true` makes the dispatcher
  return `true` (src/viewer/Viewer.cpp:353-358 and the matching lines of the
  other three).
- The key callbacks take the key as `unsigned int` (src/viewer/Viewer.h:117-120),
  while `key_down`, `key_up` and `key_repeat` receive an `int`. A negative key
  such as GLFW_KEY_UNKNOWN (-1) reaches the plugins as -1 and the callback as
  4294967295.
- The idle loop polls for five frames (`frame_counter++ < 5`) before it
  waits, and the wait resets the counter (src/viewer/Viewer.cpp:225-238).
- `DrawAction` is never set by the constructor. Calling an empty
  `std::function` throws, so a frame without a draw action throws before the
  post-draw stage (src/viewer/Viewer.cpp:615). The exception leaves the frame
  loop, and it also leaves `launch` without `launch_shut`
  (src/viewer/Viewer.cpp:107-108).
- `launch` treats only `EXIT_FAILURE` as failure (src/viewer/Viewer.cpp:102).
  When the GL loader fails, `launch_init` returns -1 without installing the
  adapters on the new window (src/viewer/Viewer.cpp:164-168), and `launch`
  goes on to the frame loop.
- `launch_init` computes the first `highdpi` as the requested window width
  divided by the reported window width (src/viewer/Viewer.cpp:198). The
  framebuffer width it queries is not used. The first frame's reconciliation
  corrects the value.
- `draw` compares the two ratios with `fabs(a - b) > 1e-8`
  (src/viewer/Viewer.cpp:589). Both are integers, so this is plain inequality.

## Model

| member | source | states |
|---|---|---|
| `Hooks.ButtonCode` | src/viewer/Viewer.h:22-25 | the integer a plugin receives for a button is its declaration position: Left is 0, Right is 2, Middle is 1 |
| `Hooks.ButtonCodeInjective` | src/viewer/Viewer.h:22-25 | different buttons reach plugins as different integers |
| `Hooks.CallbackArgs` | src/viewer/Viewer.h:109-120 | the init and draw callbacks receive no payload; the key callbacks receive the key converted to `unsigned int` (within 0 .. 2^32 - 1, congruent modulo 2^32); every other callback receives what the plugins receive |
| `Hooks.CallbackKeyUnsigned` | src/viewer/Viewer.h:117-120 | a key within the `unsigned int` range reaches a key callback unchanged; key -1 reaches it as 4294967295 |
| `Dispatch.FirstTrue` | src/viewer/Viewer.cpp:345-351 | the position where a dispatch loop stops: every earlier plugin answered false, and the plugin there answered true unless no plugin did |
| `Dispatch.Offered` | src/viewer/Viewer.cpp:282-285 | offering an event to the first `count` plugins makes exactly `count` calls, the i-th to plugin i |
| `Dispatch.ChainWithFallback` | src/viewer/Viewer.cpp:343-425 | the calls start with the plugin stage and add at most the callback; at most every plugin and the callback are called; a false result means no plugin answered true |
| `Dispatch.ChainStopsAtFirstConsumer` | src/viewer/Viewer.cpp:366-372 | once plugin i consumes an event, the result is true and no later plugin and no callback receives it |
| `Dispatch.ChainReachesPlugin` | src/viewer/Viewer.cpp:366-372 | plugin j receives the event exactly when every plugin before it returned false |
| `Dispatch.ChainCallbackIff` | src/viewer/Viewer.cpp:374-380 | the legacy callback runs exactly when its slot is set and no plugin consumed |
| `Dispatch.ChainConsumedIff` | src/viewer/Viewer.cpp:364-383 | a key dispatch returns true exactly when some plugin returned true or the reached callback did |
| `Dispatch.ChainSecondPluginConsumes` | src/viewer/Viewer.cpp:364-383 | with plugins answering false then true, key_down(65, 0) calls both plugins, not the callback, and returns true |
| `Dispatch.Fallback` | src/viewer/Viewer.cpp:604-610 | the `if (callback_x) callback_x(...)` step of the draw stages (also lines 628-634) and of post_resize (lines 646-649): the slot's callback once when set, nothing otherwise; its defining property is stated by `Dispatch.Broadcast` and `Dispatch.DrawStageReaches` |
| `Dispatch.Broadcast` | src/viewer/Viewer.cpp:639-650 | a broadcast calls every plugin once in order and then the callback if set, whatever the plugins return |
| `Dispatch.Stage` | src/viewer/Viewer.cpp:596-602 | a first-consumer stage calls at most one plugin per answer; when it stops before the last plugin, the last plugin it called answered true |
| `Dispatch.StageReaches` | src/viewer/Viewer.cpp:596-602 | the j-th call of a stage goes to plugin j, and plugin j is called exactly when every earlier plugin answered false |
| `Dispatch.DrawStage` | src/viewer/Viewer.cpp:596-610 | a draw stage (pre_draw here, post_draw at lines 620-634) makes at most one call per plugin plus the callback; when the callback slot is set, the callback is called last, whatever the plugins answered |
| `Dispatch.DrawStageReaches` | src/viewer/Viewer.cpp:596-610 | in a draw stage (pre_draw here, post_draw at lines 620-634) plugin j is called exactly when every earlier plugin answered false, and the callback is called exactly when its slot is set |
| `Dispatch.FrameCalls` | src/viewer/Viewer.cpp:596-634 | a frame's calls start with the pre-draw stage; with a draw action it comes right after that stage; without one, no draw action is ever called |
| `Dispatch.InitCalls` | src/viewer/Viewer.cpp:264-277 | init calls the callback first if set, then every plugin unless the callback cancelled |
| `Dispatch.DrawActionOnceBetweenStages` | src/viewer/Viewer.cpp:596-634 | with a draw action set, it runs exactly once, after all pre-draw calls and before all post-draw calls, for any pre-draw answers; the first plugin always gets post_draw |
| `Dispatch.InitCancelSkipsPlugins` | src/viewer/Viewer.cpp:264-277 | an init callback answering true keeps every plugin from receiving init; otherwise every plugin receives it |
| `Dpi.Observed` | src/viewer/Viewer.cpp:581-587 | the observed ratio is the floor of framebuffer width over window width, or the stored ratio when either width is 0 |
| `Dpi.Drifted` | src/viewer/Viewer.cpp:589 | a drift can only be seen when both widths are positive; a zero width keeps the stored ratio |
| `Dpi.DriftIff` | src/viewer/Viewer.cpp:587-593 | draw resizes exactly when both widths are positive and the stored ratio is not the floor of framebuffer width over window width |
| `Dpi.ReconcileSettles` | src/viewer/Viewer.cpp:587-593 | after the ratio is stored, the same sizes trigger no further resize |
| `Dpi.DoubleDensityDetected` | src/viewer/Viewer.cpp:587-593 | a 200-wide framebuffer over a 100-wide window with stored ratio 1 gives ratio 2 and a resize |
| `Schedule.Next` | src/viewer/Viewer.cpp:225-238 | the loop waits exactly when not animating and the counter has reached 5; waiting resets the counter; animating leaves it alone |
| `Schedule.CounterAfter` | src/viewer/Viewer.cpp:213-238 | between iterations frame_counter stays within 0..5 |
| `Schedule.StepAt` | src/viewer/Viewer.cpp:225-238 | iteration k leaves the counter that iteration k + 1 starts with, and it waits exactly when idle with the counter at 5 |
| `Schedule.AnimatingAlwaysPolls` | src/viewer/Viewer.cpp:225-227 | while animating, every iteration polls and the counter stays 0 |
| `Schedule.IdleCounter` | src/viewer/Viewer.cpp:225-238 | when idle, the counter after n iterations is n mod 6 |
| `Schedule.IdleFivePollsThenWait` | src/viewer/Viewer.cpp:225-238 | when idle, iteration k waits exactly when k mod 6 is 5 (five polls, then one wait), and the wait resets the counter |
| `ViewerModel.ButtonFromGlfw` | src/viewer/Viewer.cpp:14-27 | native button 1 maps to Left, button 2 to Right, every other button to Middle |
| `ViewerModel.KeyHook` | src/viewer/Viewer.cpp:56-67 | a press goes to key_down, a release to key_up, a repeat to key_repeat, any other action to no hook |
| `ViewerModel.AdapterCalls` | src/viewer/Viewer.cpp:12-90 | the calls an adapter makes for one native event, at most one per plugin plus the callback |
| `ViewerModel.AdapterPointer` | src/viewer/Viewer.cpp:12-37 | only button and scroll events change the pointer state; a press records the down position; a release lets go of the button; a scroll adds its vertical offset |
| `ViewerModel.Closes` | src/viewer/Viewer.cpp:49-54 | a close request always closes the window; any other closing event is an Escape press delivered through the installed adapters, which is also dispatched to key_down |
| `ViewerModel.EventsCalls` | src/viewer/Viewer.cpp:225-238 | delivering the events polled or waited for makes at most one call per plugin plus the callback for each event |
| `ViewerModel.EventsPointer` | src/viewer/Viewer.cpp:12-37 | after a sequence of events the down position is either unchanged or the current cursor position; when the last event is a button event other than a press, the button is not down |
| `ViewerModel.EventsPointerAppend` | src/viewer/Viewer.cpp:225-238 | delivering two batches of events one after the other leaves the pointer state that delivering them as one batch does |
| `ViewerModel.ScrollAccumulates` | src/viewer/Viewer.cpp:552-557 | after any sequence of events the scroll position has grown by the sum of the scroll offsets, whatever the hooks answer |
| `ViewerModel.UnconsumedPressThenRelease` | src/viewer/Viewer.cpp:429-499 | an unconsumed press holds the button in rotation mode at the current position, and an unconsumed release then lets go and leaves every mode |
| `ViewerModel.InitStatus` | src/viewer/Viewer.cpp:116-168 | launch_init returns EXIT_FAILURE exactly when the windowing layer fails or no window is created, -1 when the GL loader fails, EXIT_SUCCESS otherwise |
| `ViewerModel.RequestedSize` | src/viewer/Viewer.cpp:129-154 | fullscreen uses the video mode's size; windowed mode keeps positive sizes and replaces a non-positive width by 1280 and height by 800 |
| `ViewerModel.DefaultWindowSize` | src/viewer/Viewer.cpp:140-148 | a windowed launch with width 0 and height 0 opens a 1280 by 800 window |
| `ViewerModel.ClosingFrame` | src/viewer/Viewer.cpp:215 | the index of the frame that ends the loop is at most the number of frames, and when it is a frame, that frame's events set the should-close flag |
| `ViewerModel.ClosingFrameFirst` | src/viewer/Viewer.cpp:215 | no frame before the closing frame has events that set the should-close flag |
| `ViewerModel.ClosingFrameAt` | src/viewer/Viewer.cpp:215 | up to the closing frame, a frame's events set the should-close flag exactly when it is the closing frame |
| `ViewerModel.RatioAfter` | src/viewer/Viewer.cpp:587-593 | before any frame the ratio is the one the loop started with; the ratio stored by frame k - 1 does not drift again for that frame's sizes |
| `ViewerModel.FrameDrawCalls` | src/viewer/Viewer.cpp:579-635 | everything draw calls in one frame: the drift resize, then the pre-draw stage, the draw action and the post-draw stage; it is `ViewerModel.Viewer.Draw`'s postcondition, and its shape is stated by `ViewerModel.FrameDrawCallsShape` |
| `ViewerModel.FrameDrawCallsShape` | src/viewer/Viewer.cpp:579-635 | draw's calls end with the frame's stages and draw action; without a drift they are exactly those; with a drift a resize to every plugin, and to the callback if set, comes first |
| `ViewerModel.FramesPointerFlattens` | src/viewer/Viewer.cpp:213-238 | delivering the events frame by frame leaves the pointer state that delivering all of the frames' events in one batch does |
| `ViewerModel.PlannedIteration` | src/viewer/Viewer.cpp:215-238 | one pass of launch_rendering's loop for frame k: the k-th scheduling step, frame k's draw with `first` exactly when k is 0 under the ratio after k frames, and, with adapters installed, the event calls under the ratio that draw stored; `ViewerModel.PlannedIterationsNext` and `ViewerModel.Viewer.LoopPass` state that the loop performs it |
| `ViewerModel.PlannedIterations` | src/viewer/Viewer.cpp:213-238 | the plan for the first n frames holds exactly n iterations, one per frame |
| `ViewerModel.PlannedIterationsNext` | src/viewer/Viewer.cpp:213-238 | an iteration that takes step n, draws frame n (first only when n is 0) under the ratio before it, and delivers its events under the ratio after it extends the plan for n frames by exactly that iteration |
| `ViewerModel.Viewer.constructor` | src/viewer/Viewer.cpp:296-330 | a new viewer has no window, no plugins, no callbacks, no draw action, mode None, mouse positions 0, not down, scroll 0, highdpi 1 |
| `ViewerModel.Viewer.SetDrawCall` | src/viewer/Viewer.h:69-71 | the draw action becomes the one given, so the last call wins |
| `ViewerModel.Viewer.OfferUntilConsumed` | src/viewer/Viewer.cpp:596-602 | the loop offers the plugins in order up to the first consumer and reports whether any plugin consumed |
| `ViewerModel.Viewer.OfferAll` | src/viewer/Viewer.cpp:642-645 | the loop calls every plugin in order |
| `ViewerModel.Viewer.RunChain` | src/viewer/Viewer.cpp:345-361 | the calls made and the value returned are those of chain-with-fallback |
| `ViewerModel.Viewer.KeyPressed` | src/viewer/Viewer.cpp:343-362 | key_pressed is a chain-with-fallback dispatch of the key and modifiers |
| `ViewerModel.Viewer.KeyDown` | src/viewer/Viewer.cpp:364-383 | key_down is a chain-with-fallback dispatch of the key and modifiers |
| `ViewerModel.Viewer.KeyUp` | src/viewer/Viewer.cpp:385-404 | key_up is a chain-with-fallback dispatch of the key and modifiers |
| `ViewerModel.Viewer.KeyRepeat` | src/viewer/Viewer.cpp:406-425 | key_repeat is a chain-with-fallback dispatch of the key and modifiers |
| `ViewerModel.Viewer.MouseDown` | src/viewer/Viewer.cpp:429-474 | the down position becomes the current position even when consumed; only an unconsumed press sets down and Rotation; the result is always true |
| `ViewerModel.Viewer.MouseUp` | src/viewer/Viewer.cpp:476-499 | down is cleared whether or not the release is consumed; only an unconsumed release sets mode None; the result is always true |
| `ViewerModel.Viewer.MouseMove` | src/viewer/Viewer.cpp:501-550 | mouse_move dispatches the position, writes no viewer field and always returns true |
| `ViewerModel.Viewer.MouseScroll` | src/viewer/Viewer.cpp:552-577 | the delta is added to scroll_position whether or not consumed; the result is always true |
| `ViewerModel.Viewer.PostResize` | src/viewer/Viewer.cpp:639-650 | post_resize broadcasts the size to every plugin in order and then to the callback if set |
| `ViewerModel.Viewer.Draw` | src/viewer/Viewer.cpp:579-635 | highdpi becomes the observed ratio; a resize with the framebuffer size is broadcast first exactly when the ratio changed; then the pre-draw stage, the draw action and the post-draw stage run; with no draw action it throws before the post-draw stage |
| `ViewerModel.Viewer.RunDrawStage` | src/viewer/Viewer.cpp:596-610 | the draw stage's plugin loop and callback make exactly a draw stage's calls |
| `ViewerModel.Viewer.InitPlugins` | src/viewer/Viewer.cpp:279-286 | every plugin receives init, in order |
| `ViewerModel.Viewer.ShutdownPlugins` | src/viewer/Viewer.cpp:288-294 | every plugin receives shutdown, in order |
| `ViewerModel.Viewer.Init` | src/viewer/Viewer.cpp:264-277 | the init callback, if set, runs first; when it answers true the plugins are not initialised, otherwise all are |
| `ViewerModel.Viewer.LaunchShut` | src/viewer/Viewer.cpp:255-262 | every plugin receives shutdown in order; there is no precondition, so a call after a failed start-up or a second call is allowed |
| `ViewerModel.Viewer.GlfwMousePress` | src/viewer/Viewer.cpp:12-37 | a press goes to mouse_down and anything else to mouse_up, with the mapped button, with those methods' effects |
| `ViewerModel.Viewer.GlfwKey` | src/viewer/Viewer.cpp:49-68 | an Escape press sets should-close whatever the dispatch returns; press, release and repeat go to key_down, key_up and key_repeat, and other actions to nothing |
| `ViewerModel.Viewer.GlfwCharMods` | src/viewer/Viewer.cpp:44-47 | a character goes to key_pressed |
| `ViewerModel.Viewer.GlfwWindowSize` | src/viewer/Viewer.cpp:70-76 | a window size scaled by highdpi is broadcast as a resize |
| `ViewerModel.Viewer.GlfwMouseMove` | src/viewer/Viewer.cpp:78-81 | a cursor position scaled by highdpi goes to mouse_move |
| `ViewerModel.Viewer.GlfwMouseScroll` | src/viewer/Viewer.cpp:83-90 | the vertical offset goes to mouse_scroll and is added to scroll_position |
| `ViewerModel.Viewer.Deliver` | src/viewer/Viewer.cpp:184-191 | each native event reaches its installed adapter: the adapter's calls are made and its pointer effect happens; should-close is set by a close request or an Escape press |
| `ViewerModel.Viewer.ProcessEvents` | src/viewer/Viewer.cpp:225-238 | polling or waiting delivers the events in order: with adapters installed, the calls and pointer state are those of the events' adapters in turn; without them nothing is called and no pointer state changes; should-close is set exactly when one event closes the window |
| `ViewerModel.Viewer.RenderFrame` | src/viewer/Viewer.cpp:219-238 | draw stores the observed ratio and makes the frame's draw calls; when draw throws no events are delivered; otherwise the events' adapter calls and pointer effects happen, and should-close is set exactly when an event closes the window |
| `ViewerModel.Viewer.LoopPass` | src/viewer/Viewer.cpp:214-238 | a loop pass from the state after i frames leaves the ratio, counter and pointer state after i + 1 frames and performs planned iteration i; when draw throws, should-close and the pointer state are unchanged and the draw calls of frame 0 are those made |
| `ViewerModel.Viewer.LaunchRendering` | src/viewer/Viewer.cpp:208-253 | iteration k is the planned one: the k-th scheduling step, the draw calls of frame k under the ratio after k frames with first=true exactly when k is 0, and, with adapters installed, the calls of frame k's events under the ratio after k + 1 frames; highdpi ends as the ratio after the completed iterations; the pointer state is that of all delivered events in order; with loop=false exactly one iteration runs; otherwise the loop runs until the first frame whose events close the window; a missing draw action throws during frame 0's draw after its pre-draw calls, with no iteration completed |
| `ViewerModel.Viewer.LaunchInit` | src/viewer/Viewer.cpp:112-206 | returns the start-up status; asks for the defaulted or fullscreen size; a created window has no adapters unless start-up succeeds; on success installs the adapters, sets highdpi to requested width over window width, broadcasts one resize and then runs init |
| `ViewerModel.Viewer.Launch` | src/viewer/Viewer.cpp:99-110 | EXIT_FAILURE from start-up leads to shutdown and EXIT_FAILURE; any other status (-1 included) runs the loop, then shutdown and EXIT_SUCCESS, unless no draw action is set and the loop throws, which skips shutdown; the draw action and the plugins are left as they were |

## Left out

- The windowing and GL loading calls are foreign calls and are left out:
  window hints, context creation, input mode, buffer swap, poll and wait,
  window destruction, terminate, maximize. Their results enter the model as
  `InitEnv` and `Frame` inputs.
- The `std::chrono` timing in the frame loop is left out. Its values are
  never used.
- The Apple hide/show workaround, the DEBUG version printing and the error
  callback that writes to stderr are left out: they are output only.
- The `scroll_x`/`scroll_y` accumulators are left out because nothing reads
  them.
- Floating point is not modelled. Cursor positions arrive as integers that
  are already truncated. `scroll_position` is an exact real with no float
  rounding.
- Some interaction code has no effect and is left out: the held-button
  branch of `mouse_move` (a framebuffer query and an empty switch), the empty
  switch and the unused `center` in `mouse_down`, and the fields
  `down_rotation`, `down_translation` and `down_mouse_z`.
- The `callback_*_data` pointers are never read and are left out.
- The drop callback does nothing and is modelled as a no-op.
- `resize(int, int)` is declared but not defined in the source.
- The plugin's content hooks (`load`, `unload`, `save`, `serialize`,
  `deserialize`, `post_load`) are never called by the viewer. ViewerPlugin's
  own definitions are not part of this model, so every plugin is an
  arbitrary oracle.
- Plugins and callbacks receive the viewer and could change its public
  fields (`is_animating`, `plugins`, callback slots) during a dispatch. The
  model does not capture this, so those fields stay fixed while a dispatch or
  the frame loop runs.
- `ViewerModel.Viewer.MouseDown`: the model does not capture that the down
  position is written *before* the hooks run, because the oracle hooks cannot
  read the viewer. It states only that the write happens whatever the hooks
  answer.
- `ViewerModel.Viewer.MouseUp`: the model does not capture that `down` is
  cleared *before* the hooks run, so that a hook reading the viewer sees it
  cleared. It states only the final value, whatever the hooks answer.
- `ViewerModel.Viewer.MouseScroll`: the model does not capture that the
  scroll position is updated *before* the hooks run, so that a hook reading
  the viewer sees the new value. It states only the final value.
- `ViewerModel.Viewer.LaunchRendering`: the environment is a finite list of
  frames. When `loop` is true and a draw action is set, some frame must close
  the window. A loop that never ends is not modelled.
- `ViewerModel.Viewer.Launch`: the same finite list of frames is required,
  so a launch whose frame loop never ends is not modelled.
- `ViewerModel.Viewer.Launch`: the contract states the result and whether
  shutdown ran, not the calls made.
- `ViewerModel.Viewer.LaunchInit`: the source divides by the reported window
  width without a guard, so a zero width would be undefined behaviour. The
  model requires a positive width on the path where that division runs.
- `ViewerModel.Viewer.LaunchInit`: with `maximize` set (src/main.cpp:26
  passes true), a failed window creation reaches `glfwMaximizeWindow` with a
  null window before the null check returns EXIT_FAILURE
  (src/viewer/Viewer.cpp:149-160). The model's EXIT_FAILURE on that path holds
  only if that foreign call accepts a null window.
- The adapters scale sizes and positions by `highdpi` in 32-bit `int`
  (`width * highdpi` and `height * highdpi` at src/viewer/Viewer.cpp:72-73,
  `(int)x * highdpi` at src/viewer/Viewer.cpp:80). An overflow there would be
  undefined behaviour. The model multiplies unbounded integers, which agrees
  for every real window size and cursor position.
- `highdpi` and the adapters' target `__viewer` are file-level variables of
  the source. They are modelled as the viewer's fields `highdpi` and
  `registered`. A second Viewer in the same process would share them in the
  source but not in the model.
- Exceptions thrown by plugins, callbacks or a set draw action are not
  modelled. The one exception modelled is the one thrown when `DrawAction`
  is empty.
- `src/main.cpp` is left out: it is the process start-up, and it calls
  `launch_shut` twice when the frame loop throws.

=== FILE: Dispatch.dfy ===
/**
 * The dispatch protocols of the viewer, as functions from the answers the
 * plugins and callbacks give to the list of invocations made:
 *
 *  - chain-with-fallback (key and mouse events): plugins in order until the
 *    first one that reports "consumed", then the legacy callback only if none
 *    did;
 *  - broadcast (post_resize, init_plugins, shutdown_plugins): every plugin in
 *    order whatever it answers;
 *  - the draw order: a pre-draw stage, the draw action, a post-draw stage.
 *
 * The Viewer methods that run these protocols with loops are proved against
 * the functions here; the lemmas state what the protocols promise.
 */
module Dispatch {
  import opened Hooks
  import Wrappers

  /** The position of the first `true` in `flags`, or |flags| when there is none. */
  function FirstTrue(flags: seq<bool>): (k: nat)
    ensures k <= |flags|
    ensures forall i :: 0 <= i < k ==> !flags[i]
    ensures k < |flags| ==> flags[k]
  {
    if flags == [] || flags[0] then 0 else 1 + FirstTrue(flags[1..])
  }

  predicate SomeTrue(flags: seq<bool>)
  {
    exists i :: 0 <= i < |flags| && flags[i]
  }

  /** The invocations made by offering `ev` to the plugins at positions 0 .. count - 1, in order. */
  function Offered(ev: Event, count: nat): (calls: seq<Call>)
    ensures |calls| == count
    ensures forall i :: 0 <= i < count ==> calls[i] == ToPlugin(i, ev)
  {
    if count == 0 then [] else Offered(ev, count - 1) + [ToPlugin(count - 1, ev)]
  }

  /** The legacy callback for `ev`, when its slot is set. */
  function Fallback(ev: Event, hasCallback: bool): seq<Call>
  {
    if hasCallback then [ToSlot(ev)] else []
  }

  /**
   * A first-consumer stage: the plugins are offered `ev` in order, up to and
   * including the first whose answer is `true`.
   */
  function Stage(ev: Event, answers: seq<bool>): (calls: seq<Call>)
    ensures |calls| <= |answers|
    ensures |calls| < |answers| ==> |calls| > 0 && answers[|calls| - 1]
  {
    var k := FirstTrue(answers);
    Offered(ev, if k < |answers| then k + 1 else k)
  }

  /** What one dispatch did: the invocations made, and the value the dispatcher returns. */
  datatype Outcome = Outcome(calls: seq<Call>, consumed: bool)

  /**
   * Chain-with-fallback: plugin `i` answers `answers[i]`; the legacy callback,
   * reached only when no plugin consumed, answers `callbackAnswer`.
   */
  function ChainWithFallback(ev: Event, answers: seq<bool>, hasCallback: bool, callbackAnswer: bool): (o: Outcome)
    ensures Stage(ev, answers) <= o.calls && |o.calls| <= |Stage(ev, answers)| + 1
    ensures |o.calls| <= |answers| + 1
    ensures !o.consumed ==> forall i :: 0 <= i < |answers| ==> !answers[i]
  {
    if FirstTrue(answers) < |answers| then Outcome(Stage(ev, answers), true)
    else if hasCallback then Outcome(Stage(ev, answers) + [ToSlot(ev)], callbackAnswer)
    else Outcome(Stage(ev, answers), false)
  }

  /** A broadcast: every one of `count` plugins once, in order, whatever each answers, then the legacy callback if set. */
  function Broadcast(ev: Event, count: nat, hasCallback: bool): (calls: seq<Call>)
    ensures |calls| == if hasCallback then count + 1 else count
    ensures forall j :: 0 <= j < count ==> calls[j] == ToPlugin(j, ev)
    ensures hasCallback ==> calls[count] == ToSlot(ev)
  {
    Offered(ev, count) + Fallback(ev, hasCallback)
  }

  /**
   * A draw stage: a first-consumer stage over the plugins, after which the
   * legacy callback runs if set, whether or not a plugin consumed.
   */
  function DrawStage(ev: Event, answers: seq<bool>, hasCallback: bool): (calls: seq<Call>)
    ensures |calls| <= |answers| + 1
    ensures hasCallback ==> |calls| > 0 && calls[|calls| - 1] == ToSlot(ev)
  {
    Stage(ev, answers) + Fallback(ev, hasCallback)
  }

  /** Every plugin before position `j` answered `false`. */
  predicate NoneBefore(answers: seq<bool>, j: int)
  {
    forall i :: 0 <= i < j && i < |answers| ==> !answers[i]
  }

  /**
   * A first-consumer stage offers `ev` to plugin `j`, at its own position,
   * exactly when every plugin before it answered `false`.
   */
  lemma StageReaches(ev: Event, answers: seq<bool>)
    ensures forall j :: 0 <= j < |Stage(ev, answers)| ==> Stage(ev, answers)[j] == ToPlugin(j, ev)
    ensures forall j :: 0 <= j < |answers| ==> (j < |Stage(ev, answers)| <==> NoneBefore(answers, j))
  {
  }

  /**
   * A draw stage reaches plugin `j` exactly when every plugin before it
   * answered `false`, and reaches the legacy callback exactly when its slot
   * is set, whatever the plugins answered.
   */
  lemma DrawStageReaches(ev: Event, answers: seq<bool>, hasCallback: bool)
    ensures forall j :: 0 <= j < |answers| ==>
              (ToPlugin(j, ev) in DrawStage(ev, answers, hasCallback) <==> NoneBefore(answers, j))
    ensures ToSlot(ev) in DrawStage(ev, answers, hasCallback) <==> hasCallback
  {
  }

  /**
   * The invocations of one frame after the density check: the pre-draw
   * stage, then the draw action, then the post-draw stage. With no draw
   * action set, calling the empty action throws, so nothing after the
   * pre-draw stage happens.
   */
  function FrameCalls(first: bool, preAnswers: seq<bool>, postAnswers: seq<bool>,
                      hasPreCallback: bool, hasPostCallback: bool,
                      action: Wrappers.Option<ActionId>): (calls: seq<Call>)
    ensures DrawStage(Event(PreDraw, FirstFrame(first)), preAnswers, hasPreCallback) <= calls
    ensures action.None? ==> forall c :: c in calls ==> !c.ToDrawAction?
    ensures action.Some? ==> |calls| > |DrawStage(Event(PreDraw, FirstFrame(first)), preAnswers, hasPreCallback)|
    ensures action.Some? ==> calls[|DrawStage(Event(PreDraw, FirstFrame(first)), preAnswers, hasPreCallback)|] == ToDrawAction(action.value)
  {
    DrawStage(Event(PreDraw, FirstFrame(first)), preAnswers, hasPreCallback) +
    match action
    case None => []
    case Some(a) => [ToDrawAction(a)] + DrawStage(Event(PostDraw, FirstFrame(first)), postAnswers, hasPostCallback)
  }

  /**
   * init(): the init callback, if set, runs first; when it answers `true`
   * ("cancel") the plugins are not initialised, otherwise every plugin is.
   */
  function InitCalls(count: nat, hasCallback: bool, cancel: bool): (calls: seq<Call>)
    ensures |calls| == (if hasCallback then 1 else 0) + (if hasCallback && cancel then 0 else count)
    ensures hasCallback ==> calls[0] == ToSlot(Event(Init, NoArgs))
  {
    var ev := Event(Init, NoArgs);
    if hasCallback && cancel then [ToSlot(ev)] else Fallback(ev, hasCallback) + Offered(ev, count)
  }

  // ---------------------------------------------------------------------
  // Chain-with-fallback

  /** Once plugin `i` consumes the event, no later plugin and no callback receives it. */
  lemma ChainStopsAtFirstConsumer(ev: Event, answers: seq<bool>, hasCallback: bool, callbackAnswer: bool, i: nat)
    requires i < |answers| && answers[i]
    ensures ChainWithFallback(ev, answers, hasCallback, callbackAnswer).consumed
    ensures forall c :: c in ChainWithFallback(ev, answers, hasCallback, callbackAnswer).calls ==>
              c.ToPlugin? && c.pos <= i
  {
  }

  /** Plugin `j` receives the event exactly when every plugin before it declined it. */
  lemma ChainReachesPlugin(ev: Event, answers: seq<bool>, hasCallback: bool, callbackAnswer: bool, j: nat)
    requires j < |answers|
    ensures ToPlugin(j, ev) in ChainWithFallback(ev, answers, hasCallback, callbackAnswer).calls <==>
            forall i :: 0 <= i < j ==> !answers[i]
  {
  }

  /** The legacy callback runs exactly when its slot is set and no plugin consumed. */
  lemma ChainCallbackIff(ev: Event, answers: seq<bool>, hasCallback: bool, callbackAnswer: bool)
    ensures ToSlot(ev) in ChainWithFallback(ev, answers, hasCallback, callbackAnswer).calls <==>
            hasCallback && !SomeTrue(answers)
  {
  }

  /** A dispatch reports "consumed" exactly when a plugin or the callback it reached did. */
  lemma ChainConsumedIff(ev: Event, answers: seq<bool>, hasCallback: bool, callbackAnswer: bool)
    ensures ChainWithFallback(ev, answers, hasCallback, callbackAnswer).consumed <==>
            SomeTrue(answers) || (hasCallback && callbackAnswer)
  {
  }

  /** The example of two plugins of which the second consumes key_down(65, 0). */
  lemma ChainSecondPluginConsumes(callbackAnswer: bool)
    ensures var ev := Event(KeyDown, Key(65, 0));
            ChainWithFallback(ev, [false, true], true, callbackAnswer) ==
            Outcome([ToPlugin(0, ev), ToPlugin(1, ev)], true)
  {
    assert FirstTrue([false, true]) == 1 by {
      assert [false, true][1..] == [true];
    }
  }

  // ---------------------------------------------------------------------
  // Draw order

  /** Every invocation in `calls` is a plugin receiving `ev` or the callback slot for `ev`. */
  predicate OnlyEvent(calls: seq<Call>, ev: Event)
  {
    forall c :: c in calls ==> (c.ToPlugin? && c.event == ev) || c == ToSlot(ev)
  }

  lemma DrawStageOnlyEvent(ev: Event, answers: seq<bool>, hasCallback: bool)
    ensures OnlyEvent(DrawStage(ev, answers, hasCallback), ev)
  {
  }

  /**
   * With a draw action set, it runs exactly once, after every pre-draw
   * invocation and before every post-draw one, whatever the pre-draw plugins
   * answer; and the first plugin always receives post_draw.
   */
  lemma DrawActionOnceBetweenStages(first: bool, preAnswers: seq<bool>, postAnswers: seq<bool>,
                                    hasPreCallback: bool, hasPostCallback: bool, a: ActionId)
    ensures var calls := FrameCalls(first, preAnswers, postAnswers, hasPreCallback, hasPostCallback, Wrappers.Some(a));
            exists k :: 0 <= k < |calls| && calls[k] == ToDrawAction(a) &&
                        OnlyEvent(calls[..k], Event(PreDraw, FirstFrame(first))) &&
                        OnlyEvent(calls[k + 1..], Event(PostDraw, FirstFrame(first)))
    ensures |postAnswers| > 0 ==>
              ToPlugin(0, Event(PostDraw, FirstFrame(first))) in
                FrameCalls(first, preAnswers, postAnswers, hasPreCallback, hasPostCallback, Wrappers.Some(a))
  {
    var preEv, postEv := Event(PreDraw, FirstFrame(first)), Event(PostDraw, FirstFrame(first));
    var pre := DrawStage(preEv, preAnswers, hasPreCallback);
    var post := DrawStage(postEv, postAnswers, hasPostCallback);
    var calls := FrameCalls(first, preAnswers, postAnswers, hasPreCallback, hasPostCallback, Wrappers.Some(a));
    assert calls == pre + [ToDrawAction(a)] + post;
    DrawStageOnlyEvent(preEv, preAnswers, hasPreCallback);
    DrawStageOnlyEvent(postEv, postAnswers, hasPostCallback);
    var k := |pre|;
    assert calls[..k] == pre;
    assert calls[k + 1..] == post;
    if |postAnswers| > 0 {
      assert calls[k + 1] == post[0] == ToPlugin(0, postEv);
    }
  }

  // ---------------------------------------------------------------------
  // Initialisation

  /** A cancelling init callback keeps every plugin from being initialised; otherwise all are, in order. */
  lemma InitCancelSkipsPlugins(count: nat, hasCallback: bool, cancel: bool)
    ensures hasCallback && cancel ==> forall c :: c in InitCalls(count, hasCallback, cancel) ==> !c.ToPlugin?
    ensures !(hasCallback && cancel) ==>
              forall j :: 0 <= j < count ==> ToPlugin(j, Event(Init, NoArgs)) in InitCalls(count, hasCallback, cancel)
  {
    var calls := InitCalls(count, hasCallback, cancel);
    if !(hasCallback && cancel) {
      forall j | 0 <= j < count
        ensures ToPlugin(j, Event(Init, NoArgs)) in calls
      {
        assert calls[|Fallback(Event(Init, NoArgs), hasCallback)| + j] == ToPlugin(j, Event(Init, NoArgs));
      }
    }
  }
}

=== FILE: Dpi.dfy ===
/**
 * The pixel-density ratio (`highdpi`) the viewer keeps: framebuffer width
 * over window width, in whole numbers, as draw re-derives it every frame.
 * Sizes reported by the windowing layer are never negative, so the integer
 * division of the source (which truncates) is the floor taken here.
 */
module Dpi {

  /**
   * The ratio draw observes: `width / width_window`, except that the stored
   * ratio is kept when either width is 0.
   */
  function Observed(stored: int, fbWidth: nat, winWidth: nat): (r: int)
    ensures fbWidth == 0 || winWidth == 0 ==> r == stored
    ensures fbWidth > 0 && winWidth > 0 ==> 0 <= r && r * winWidth <= fbWidth < (r + 1) * winWidth
  {
    if winWidth == 0 || fbWidth == 0 then stored else fbWidth / winWidth
  }

  /** Whether draw broadcasts a resize: the observed ratio differs from the stored one. */
  predicate Drifted(stored: int, fbWidth: nat, winWidth: nat)
    ensures Drifted(stored, fbWidth, winWidth) ==> fbWidth > 0 && winWidth > 0
  {
    Observed(stored, fbWidth, winWidth) != stored
  }

  /**
   * A resize is due exactly when both widths are positive and the stored
   * ratio is not the whole number of framebuffer pixels per window pixel.
   */
  lemma DriftIff(stored: int, fbWidth: nat, winWidth: nat)
    ensures Drifted(stored, fbWidth, winWidth) <==>
              fbWidth > 0 && winWidth > 0 && !(stored * winWidth <= fbWidth < (stored + 1) * winWidth)
  {
  }

  /**
   * Reconciliation settles in one frame: once the stored ratio is the
   * observed one, the same sizes no longer trigger a resize.
   */
  lemma ReconcileSettles(stored: int, fbWidth: nat, winWidth: nat)
    ensures !Drifted(Observed(stored, fbWidth, winWidth), fbWidth, winWidth)
  {
  }

  /** A framebuffer 200 wide over a window 100 wide, stored ratio 1: ratio 2, a resize is due. */
  lemma DoubleDensityDetected()
    ensures Observed(1, 200, 100) == 2 && Drifted(1, 200, 100)
  {
  }
}

=== FILE: Hooks.dfy ===
/**
 * The vocabulary of the viewer: the UI enumerations of the Viewer class, the
 * hooks a plugin (or a legacy callback slot) can receive, and the record of
 * one invocation of a hook.
 */
module Hooks {

  /** Viewer::MouseButton, in declaration order. */
  datatype MouseButton = Left | Middle | Right

  /** Viewer::MouseMode, in declaration order. */
  datatype MouseMode = None | Rotation | Zoom | Pan | Translation

  /** static_cast<int>(button): the enumerator's position in its declaration. */
  function ButtonCode(b: MouseButton): (code: int)
    ensures 0 <= code <= 2
    ensures code == 0 <==> b == Left
    ensures code == 2 <==> b == Right
  {
    match b
    case Left => 0
    case Middle => 1
    case Right => 2
  }

  /** Two different buttons never reach a plugin as the same integer. */
  lemma ButtonCodeInjective(a: MouseButton, b: MouseButton)
    ensures ButtonCode(a) == ButtonCode(b) ==> a == b
  {
  }

  /**
   * The kinds of hook: every ViewerPlugin hook the viewer drives, which are
   * also the names of the legacy callback slots (there is no callback slot
   * for Shutdown).
   */
  datatype Hook =
    | Init | Shutdown
    | PreDraw | PostDraw | PostResize
    | MouseDown | MouseUp | MouseMove | MouseScroll
    | KeyPressed | KeyDown | KeyUp | KeyRepeat

  /** The payload a hook receives besides the viewer. */
  datatype Args =
    | NoArgs
    | FirstFrame(first: bool)
    | Size(w: int, h: int)
    | Button(button: int, modifier: int)
    | Position(x: int, y: int)
    | Scroll(deltaY: real)
    | Key(key: int, modifiers: int)

  /** One event as delivered to a hook. */
  datatype Event = Event(hook: Hook, args: Args)

  /** The external frame-draw procedure, identified by the value handed to setDrawCall. */
  type ActionId = nat

  /** One invocation made by the viewer. */
  datatype Call =
    | ToPlugin(pos: nat, event: Event)   // the plugin at position `pos` of `plugins`
    | ToCallback(event: Event)           // the legacy callback slot `event.hook`, with what it receives
    | ToDrawAction(action: ActionId)     // the draw action

  /** The number of values of a 32-bit `unsigned int`. */
  const UIntRange: int := 0x1_0000_0000

  /** A value of a 32-bit `unsigned int`, such as a character code point. */
  type UInt = k: int | 0 <= k < UIntRange

  /**
   * What the legacy callback slot for `ev.hook` receives besides the viewer.
   * The init and draw callbacks take only the viewer. The key callbacks take
   * the key as an `unsigned int`, so a signed key from key_down, key_up or
   * key_repeat arrives converted modulo 2^32. Every other callback receives
   * the payload the plugins receive.
   */
  function CallbackArgs(ev: Event): (a: Args)
    ensures ev.hook == Init || ev.hook == PreDraw || ev.hook == PostDraw ==> a == NoArgs
    ensures ev.args.Key? && ev.hook != Init && ev.hook != PreDraw && ev.hook != PostDraw ==>
              a.Key? && 0 <= a.key < UIntRange && a.modifiers == ev.args.modifiers &&
              (a.key - ev.args.key) % UIntRange == 0
    ensures !ev.args.Key? && ev.hook != Init && ev.hook != PreDraw && ev.hook != PostDraw ==> a == ev.args
  {
    if ev.hook == Init || ev.hook == PreDraw || ev.hook == PostDraw then NoArgs
    else match ev.args
      case Key(key, modifiers) => Key(key % UIntRange, modifiers)
      case _ => ev.args
  }

  /** The invocation of the legacy callback slot for `ev`. */
  function ToSlot(ev: Event): Call
  {
    ToCallback(Event(ev.hook, CallbackArgs(ev)))
  }

  /**
   * A key within the range of `unsigned int` reaches the callback unchanged;
   * GLFW_KEY_UNKNOWN (-1) reaches it as 4294967295.
   */
  lemma CallbackKeyUnsigned(hook: Hook, key: int, modifiers: int)
    requires hook == KeyPressed || hook == KeyDown || hook == KeyUp || hook == KeyRepeat
    ensures 0 <= key < UIntRange ==> CallbackArgs(Event(hook, Key(key, modifiers))) == Key(key, modifiers)
    ensures key == -1 ==> CallbackArgs(Event(hook, Key(key, modifiers))) == Key(4294967295, modifiers)
  {
  }
}

=== FILE: Schedule.dfy ===
/**
 * The scheduling decision of the frame loop. After each frame the loop
 * either polls for events (and renders again at once) or blocks until an
 * event arrives. It polls while the viewer is animating; otherwise it polls
 * for a debounce of `NumExtraFrames` frames, then waits once and starts the
 * debounce over.
 */
module Schedule {

  /** num_extra_frames */
  const NumExtraFrames: nat := 5

  datatype Wake = Poll | Wait

  /** One decision and the value of frame_counter after it. */
  datatype Step = Step(wake: Wake, counter: nat)

  /**
   * `is_animating || frame_counter++ < num_extra_frames` chooses polling; the
   * counter is only incremented when `is_animating` is false, and waiting
   * resets it to 0.
   */
  function Next(animating: bool, counter: nat): (s: Step)
    ensures s.wake == Wait <==> !animating && counter >= NumExtraFrames
    ensures s.wake == Wait ==> s.counter == 0
    ensures animating ==> s.counter == counter
    ensures !animating && s.wake == Poll ==> s.counter == counter + 1
  {
    if animating then Step(Poll, counter)
    else
      var incremented := counter + 1;
      if counter < NumExtraFrames then Step(Poll, incremented) else Step(Wait, 0)
  }

  /**
   * frame_counter after `n` iterations of a loop that starts it at 0; between
   * iterations it stays within 0 .. NumExtraFrames.
   */
  function CounterAfter(animating: bool, n: nat): (c: nat)
    ensures c <= NumExtraFrames
  {
    if n == 0 then 0 else Next(animating, CounterAfter(animating, n - 1)).counter
  }

  /** The decision taken in iteration `k` (counting from 0); it leaves the counter iteration k + 1 starts with. */
  function StepAt(animating: bool, k: nat): (s: Step)
    ensures s.counter == CounterAfter(animating, k + 1)
    ensures s.wake == Wait <==> !animating && CounterAfter(animating, k) == NumExtraFrames
  {
    Next(animating, CounterAfter(animating, k))
  }

  /** While animating, the loop never waits and the counter never moves. */
  lemma {:induction false} AnimatingAlwaysPolls(k: nat)
    ensures CounterAfter(true, k) == 0
    ensures StepAt(true, k) == Step(Poll, 0)
  {
    if k > 0 {
      AnimatingAlwaysPolls(k - 1);
    }
  }

  /** When idle, the counter after `n` iterations is `n` modulo NumExtraFrames + 1. */
  lemma {:induction false} IdleCounter(n: nat)
    ensures CounterAfter(false, n) == n % (NumExtraFrames + 1)
  {
    if n > 0 {
      IdleCounter(n - 1);
    }
  }

  /**
   * When idle, the loop polls in five iterations and waits in the sixth,
   * over and over: iteration `k` waits exactly when k % 6 == 5.
   */
  lemma IdleFivePollsThenWait(k: nat)
    ensures StepAt(false, k).wake == Wait <==> k % (NumExtraFrames + 1) == NumExtraFrames
    ensures StepAt(false, k).wake == Wait ==> CounterAfter(false, k + 1) == 0
  {
    IdleCounter(k);
  }
}

=== FILE: Viewer.dfy ===
/**
 * The Viewer: the host object that owns the native window, keeps the mouse
 * and scroll state, routes every input event through its ordered list of
 * plugins and the legacy callback slots, draws frames and runs the frame
 * loop; together with the file-level adapters that forward native window
 * events to it.
 *
 * Plugins, callbacks and the windowing layer are not code of this model.
 * What they answer is passed in: a `Reply` gives what each plugin and the
 * legacy callback return to one dispatch, an `InitEnv` what the windowing
 * layer reports during start-up, and a `Frame` what it reports during one
 * iteration of the frame loop (sizes, draw-hook answers and the native
 * events delivered while polling or waiting). Every dispatch returns the
 * list of hook invocations it made, in order.
 */
module ViewerModel {
  import opened Hooks
  import opened Dispatch
  import Dpi
  import opened Schedule
  import Wrappers

  // Process exit codes of the C library.
  const EXIT_SUCCESS: int := 0
  const EXIT_FAILURE: int := 1

  // Constants of the windowing layer (GLFW 3).
  const GLFW_RELEASE: int := 0
  const GLFW_PRESS: int := 1
  const GLFW_REPEAT: int := 2
  const GLFW_KEY_ESCAPE: int := 256
  const GLFW_MOUSE_BUTTON_1: int := 0
  const GLFW_MOUSE_BUTTON_2: int := 1

  /** The size a windowed launch uses when the requested width or height is not positive. */
  const DefaultWidth: int := 1280
  const DefaultHeight: int := 800

  /** A native window handle. */
  type WindowId = nat

  /** What the plugins (in order) and the legacy callback answer to one dispatch. */
  datatype Reply = Reply(answers: seq<bool>, callback: bool)

  /** glfw_mouse_press: button 1 is Left, button 2 is Right, any other is Middle. */
  function ButtonFromGlfw(button: int): (b: MouseButton)
    ensures b == Left <==> button == GLFW_MOUSE_BUTTON_1
    ensures b == Right <==> button == GLFW_MOUSE_BUTTON_2
  {
    if button == GLFW_MOUSE_BUTTON_1 then Left
    else if button == GLFW_MOUSE_BUTTON_2 then Right
    else Middle
  }

  /** The hook glfw_key_callback forwards a key action to: press, release and repeat have one each, other actions none. */
  function KeyHook(action: int): (h: Wrappers.Option<Hook>)
    ensures h == Wrappers.Some(Hook.KeyDown) <==> action == GLFW_PRESS
    ensures h == Wrappers.Some(Hook.KeyUp) <==> action == GLFW_RELEASE
    ensures h == Wrappers.Some(Hook.KeyRepeat) <==> action == GLFW_REPEAT
    ensures h.None? <==> action != GLFW_PRESS && action != GLFW_RELEASE && action != GLFW_REPEAT
  {
    if action == GLFW_PRESS then Wrappers.Some(Hook.KeyDown)
    else if action == GLFW_RELEASE then Wrappers.Some(Hook.KeyUp)
    else if action == GLFW_REPEAT then Wrappers.Some(Hook.KeyRepeat)
    else Wrappers.None
  }

  /** A native event delivered by the windowing layer while it polls or waits. */
  datatype NativeEvent =
    | KeyInput(key: int, action: int, mods: int, reply: Reply)
    | CharInput(codepoint: UInt, mods: int, reply: Reply)
    | MouseButtonInput(button: int, action: int, mods: int, reply: Reply)
    | CursorInput(x: int, y: int, reply: Reply)
    | ScrollInput(dx: real, dy: real, reply: Reply)
    | WindowSizeInput(width: int, height: int)
    | DropInput
    | CloseRequest      // the user closed the window: the windowing layer sets its should-close flag

  /** The reply an event carries answers for `count` plugins. */
  predicate Fits(e: NativeEvent, count: nat)
  {
    match e
    case KeyInput(_, _, _, r) => |r.answers| == count
    case CharInput(_, _, r) => |r.answers| == count
    case MouseButtonInput(_, _, _, r) => |r.answers| == count
    case CursorInput(_, _, r) => |r.answers| == count
    case ScrollInput(_, _, r) => |r.answers| == count
    case _ => true
  }

  /**
   * The event sets the window's should-close flag: a close request, or, when
   * the viewer's adapters are installed, an Escape press.
   */
  predicate Closes(e: NativeEvent, adapters: bool)
    ensures e.CloseRequest? ==> Closes(e, adapters)
    ensures Closes(e, adapters) && !e.CloseRequest? ==>
              adapters && e.KeyInput? && e.key == GLFW_KEY_ESCAPE && KeyHook(e.action) == Wrappers.Some(Hook.KeyDown)
  {
    e.CloseRequest? || (adapters && e.KeyInput? && e.key == GLFW_KEY_ESCAPE && e.action == GLFW_PRESS)
  }

  predicate SomeCloses(events: seq<NativeEvent>, adapters: bool)
  {
    exists j :: 0 <= j < |events| && Closes(events[j], adapters)
  }

  /** The outcome of a chain-with-fallback dispatch of `ev` answered by `r`, with the callback slots `slots` set. */
  function Dispatched(ev: Event, r: Reply, slots: set<Hook>): Outcome
  {
    ChainWithFallback(ev, r.answers, ev.hook in slots, r.callback)
  }

  /**
   * The invocations the adapter installed for `e` makes, with density ratio
   * `ratio`, `count` plugins and the callback slots `slots` set. No adapter
   * invokes more than every plugin once and one callback.
   */
  function AdapterCalls(e: NativeEvent, ratio: int, count: nat, slots: set<Hook>): (calls: seq<Call>)
    requires Fits(e, count)
    ensures |calls| <= count + 1
  {
    match e
    case KeyInput(key, action, mods, r) =>
      if KeyHook(action).None? then [] else Dispatched(Event(KeyHook(action).value, Key(key, mods)), r, slots).calls
    case CharInput(codepoint, mods, r) => Dispatched(Event(KeyPressed, Key(codepoint, mods)), r, slots).calls
    case MouseButtonInput(button, action, mods, r) =>
      var hook := if action == GLFW_PRESS then MouseDown else MouseUp;
      Dispatched(Event(hook, Button(ButtonCode(ButtonFromGlfw(button)), mods)), r, slots).calls
    case CursorInput(x, y, r) => Dispatched(Event(MouseMove, Position(x * ratio, y * ratio)), r, slots).calls
    case ScrollInput(_, dy, r) => Dispatched(Event(MouseScroll, Scroll(dy)), r, slots).calls
    case WindowSizeInput(width, height) =>
      Broadcast(Event(PostResize, Size(width * ratio, height * ratio)), count, PostResize in slots)
    case DropInput => []
    case CloseRequest => []
  }

  /** The mouse and scroll state of the viewer that native events change. */
  datatype Pointer = Pointer(downX: int, downY: int, down: bool, mode: MouseMode, scroll: real)

  /**
   * The pointer state after the adapter for `e` runs on state `p`, with the
   * mouse at (`curX`, `curY`). Only button and scroll events change it; a
   * release always lets go of the button, and a scroll always moves the
   * scroll position by its vertical offset.
   */
  function AdapterPointer(e: NativeEvent, p: Pointer, curX: int, curY: int, slots: set<Hook>): (q: Pointer)
    ensures !e.MouseButtonInput? && !e.ScrollInput? ==> q == p
    ensures q.scroll == if e.ScrollInput? then p.scroll + e.dy else p.scroll
    ensures e.MouseButtonInput? && e.action == GLFW_PRESS ==> q.downX == curX && q.downY == curY
    ensures e.MouseButtonInput? && e.action != GLFW_PRESS ==> !q.down && q.downX == p.downX && q.downY == p.downY
  {
    match e
    case MouseButtonInput(button, action, mods, r) =>
      var hook := if action == GLFW_PRESS then MouseDown else MouseUp;
      var consumed := Dispatched(Event(hook, Button(ButtonCode(ButtonFromGlfw(button)), mods)), r, slots).consumed;
      if action == GLFW_PRESS then
        if consumed then p.(downX := curX, downY := curY) else Pointer(curX, curY, true, Rotation, p.scroll)
      else
        if consumed then p.(down := false) else p.(down := false, mode := MouseMode.None)
    case ScrollInput(_, dy, _) => p.(scroll := p.scroll + dy)
    case _ => p
  }

  /** The invocations the adapters make for `events`, in order. */
  function EventsCalls(events: seq<NativeEvent>, ratio: int, count: nat, slots: set<Hook>): (calls: seq<Call>)
    requires forall j :: 0 <= j < |events| ==> Fits(events[j], count)
    ensures |calls| <= |events| * (count + 1)
  {
    if events == [] then []
    else
      var n := |events| - 1;
      MulSucc(n, count + 1);
      EventsCalls(events[..n], ratio, count, slots) + AdapterCalls(events[n], ratio, count, slots)
  }

  lemma MulSucc(n: nat, c: nat)
    ensures n * c + c == (n + 1) * c
  {
  }

  /** The pointer state after the adapters run for `events`, in order, from `p`. */
  function EventsPointer(events: seq<NativeEvent>, p: Pointer, curX: int, curY: int, slots: set<Hook>): (q: Pointer)
    ensures (q.downX, q.downY) == (p.downX, p.downY) || (q.downX, q.downY) == (curX, curY)
    ensures events != [] && events[|events| - 1].MouseButtonInput? && events[|events| - 1].action != GLFW_PRESS ==> !q.down
  {
    if events == [] then p
    else AdapterPointer(events[|events| - 1], EventsPointer(events[..|events| - 1], p, curX, curY, slots), curX, curY, slots)
  }

  /** The sum of the vertical offsets of the scroll events among `events`. */
  function ScrollSum(events: seq<NativeEvent>): real
  {
    if events == [] then 0.0
    else
      var last := events[|events| - 1];
      ScrollSum(events[..|events| - 1]) + if last.ScrollInput? then last.dy else 0.0
  }

  /** The scroll position accumulates every vertical offset, whatever the hooks answer. */
  lemma {:induction false} ScrollAccumulates(events: seq<NativeEvent>, p: Pointer, curX: int, curY: int, slots: set<Hook>)
    ensures EventsPointer(events, p, curX, curY, slots).scroll == p.scroll + ScrollSum(events)
  {
    if events != [] {
      ScrollAccumulates(events[..|events| - 1], p, curX, curY, slots);
    }
  }

  /**
   * A press and a release of the same button that no plugin and no callback
   * consumes: the press holds the button in rotation mode at the current
   * mouse position, and the release lets go and leaves every mode.
   */
  lemma UnconsumedPressThenRelease(button: int, mods: int, count: nat, p: Pointer, curX: int, curY: int, slots: set<Hook>)
    ensures var quiet := Reply(seq(count, _ => false), false);
            var press := MouseButtonInput(button, GLFW_PRESS, mods, quiet);
            var release := MouseButtonInput(button, GLFW_RELEASE, mods, quiet);
            && EventsPointer([press], p, curX, curY, slots) == Pointer(curX, curY, true, Rotation, p.scroll)
            && EventsPointer([press, release], p, curX, curY, slots) == Pointer(curX, curY, false, MouseMode.None, p.scroll)
  {
    var quiet := Reply(seq(count, _ => false), false);
    var press := MouseButtonInput(button, GLFW_PRESS, mods, quiet);
    var release := MouseButtonInput(button, GLFW_RELEASE, mods, quiet);
    assert FirstTrue(quiet.answers) == count;
    assert [press, release][..1] == [press];
  }

  /** What the windowing layer reports during one iteration of the frame loop. */
  datatype Frame = Frame(fbWidth: nat, fbHeight: nat, winWidth: nat,
                         preDraw: seq<bool>, postDraw: seq<bool>,
                         events: seq<NativeEvent>)

  predicate FrameFits(f: Frame, count: nat)
  {
    && |f.preDraw| == count && |f.postDraw| == count
    && forall j :: 0 <= j < |f.events| ==> Fits(f.events[j], count)
  }

  /** The index of the first frame whose events close the window, or |frames|. */
  ghost function ClosingFrame(frames: seq<Frame>, adapters: bool): (k: nat)
    ensures k <= |frames|
    ensures k < |frames| ==> SomeCloses(frames[k].events, adapters)
  {
    var flags := seq(|frames|, i requires 0 <= i < |frames| => SomeCloses(frames[i].events, adapters));
    var k := FirstTrue(flags);
    assert k < |frames| ==> flags[k] == SomeCloses(frames[k].events, adapters);
    k
  }

  /** No frame before the closing frame has events that close the window. */
  lemma ClosingFrameFirst(frames: seq<Frame>, adapters: bool)
    ensures forall i :: 0 <= i < ClosingFrame(frames, adapters) ==> !SomeCloses(frames[i].events, adapters)
  {
    var flags := seq(|frames|, i requires 0 <= i < |frames| => SomeCloses(frames[i].events, adapters));
    assert forall i :: 0 <= i < |frames| ==> flags[i] == SomeCloses(frames[i].events, adapters);
  }

  /** Up to the closing frame, a frame's events close the window exactly when it is the closing frame. */
  lemma ClosingFrameAt(frames: seq<Frame>, adapters: bool, i: nat)
    requires i < |frames| && i <= ClosingFrame(frames, adapters)
    ensures SomeCloses(frames[i].events, adapters) <==> i == ClosingFrame(frames, adapters)
  {
    ClosingFrameFirst(frames, adapters);
  }

  /**
   * The density ratio in force after the first `k` frames of the loop, from
   * `start`: each frame's draw stores the ratio it observes. The ratio after
   * a frame never drifts for that frame's sizes again.
   */
  function RatioAfter(start: int, frames: seq<Frame>, k: nat): (r: int)
    requires k <= |frames|
    ensures k == 0 ==> r == start
    ensures k > 0 ==> !Dpi.Drifted(r, frames[k - 1].fbWidth, frames[k - 1].winWidth)
  {
    if k == 0 then start
    else
      var before := RatioAfter(start, frames, k - 1);
      Dpi.ReconcileSettles(before, frames[k - 1].fbWidth, frames[k - 1].winWidth);
      Dpi.Observed(before, frames[k - 1].fbWidth, frames[k - 1].winWidth)
  }

  /**
   * The invocations draw makes for frame `f` with stored ratio `ratio`: a
   * resize with the framebuffer size when the ratio drifted, then the frame's
   * pre-draw stage, draw action and post-draw stage. `Viewer.Draw` is
   * proved to make exactly these calls.
   */
  function FrameDrawCalls(ratio: int, f: Frame, first: bool, count: nat, slots: set<Hook>,
                          action: Wrappers.Option<ActionId>): seq<Call>
  {
    var resize := if Dpi.Drifted(ratio, f.fbWidth, f.winWidth)
                  then Broadcast(Event(PostResize, Size(f.fbWidth, f.fbHeight)), count, PostResize in slots)
                  else [];
    resize + FrameCalls(first, f.preDraw, f.postDraw, PreDraw in slots, PostDraw in slots, action)
  }

  /**
   * Draw's invocations end with the frame's stages and draw action; a
   * drift adds one resize per plugin and one for the callback in front.
   */
  lemma FrameDrawCallsShape(ratio: int, f: Frame, first: bool, count: nat, slots: set<Hook>,
                            action: Wrappers.Option<ActionId>)
    ensures var calls := FrameDrawCalls(ratio, f, first, count, slots, action);
            var body := FrameCalls(first, f.preDraw, f.postDraw, PreDraw in slots, PostDraw in slots, action);
            && |body| <= |calls|
            && calls[|calls| - |body|..] == body
            && (!Dpi.Drifted(ratio, f.fbWidth, f.winWidth) ==> calls == body)
            && (Dpi.Drifted(ratio, f.fbWidth, f.winWidth) ==> |calls| == |body| + count + (if PostResize in slots then 1 else 0))
  {
  }

  /** The native events of the first `k` frames, in order. */
  function EventsUpTo(frames: seq<Frame>, k: nat): seq<NativeEvent>
    requires k <= |frames|
  {
    if k == 0 then [] else EventsUpTo(frames, k - 1) + frames[k - 1].events
  }

  /** Delivering `a` and then `b` leaves the pointer where delivering `a + b` does. */
  lemma {:induction false} EventsPointerAppend(a: seq<NativeEvent>, b: seq<NativeEvent>, p: Pointer,
                                               curX: int, curY: int, slots: set<Hook>)
    ensures EventsPointer(a + b, p, curX, curY, slots) ==
            EventsPointer(b, EventsPointer(a, p, curX, curY, slots), curX, curY, slots)
  {
    if b == [] {
      assert a + b == a;
    } else {
      var init := b[..|b| - 1];
      assert (a + b)[..|a + b| - 1] == a + init;
      assert (a + b)[|a + b| - 1] == b[|b| - 1];
      EventsPointerAppend(a, init, p, curX, curY, slots);
    }
  }

  /** The pointer state after the adapters run for the events of the first `k` frames, frame by frame, from `p`. */
  function FramesPointer(frames: seq<Frame>, k: nat, p: Pointer, curX: int, curY: int, slots: set<Hook>): Pointer
    requires k <= |frames|
  {
    if k == 0 then p
    else EventsPointer(frames[k - 1].events, FramesPointer(frames, k - 1, p, curX, curY, slots), curX, curY, slots)
  }

  /** Running the adapters frame by frame leaves the pointer where running them over all the frames' events at once does. */
  lemma {:induction false} FramesPointerFlattens(frames: seq<Frame>, k: nat, p: Pointer, curX: int, curY: int, slots: set<Hook>)
    requires k <= |frames|
    ensures FramesPointer(frames, k, p, curX, curY, slots) == EventsPointer(EventsUpTo(frames, k), p, curX, curY, slots)
  {
    if k > 0 {
      FramesPointerFlattens(frames, k - 1, p, curX, curY, slots);
      EventsPointerAppend(EventsUpTo(frames, k - 1), frames[k - 1].events, p, curX, curY, slots);
    }
  }

  /**
   * One completed iteration of the frame loop: the scheduling step taken, the
   * invocations draw made, and the invocations the events delivered while
   * polling or waiting made.
   */
  datatype Iteration = Iteration(step: Step, draw: seq<Call>, events: seq<Call>)

  /**
   * The iteration the loop performs for frame `k`, starting from ratio
   * `start`: the k-th scheduling step, the draw of frame `k` (with `first`
   * only for frame 0) and, when the adapters are installed, the delivery of
   * its events under the ratio that draw stored.
   */
  function PlannedIteration(frames: seq<Frame>, k: nat, animating: bool, start: int, count: nat,
                            slots: set<Hook>, action: Wrappers.Option<ActionId>, adapters: bool): Iteration
    requires k < |frames| && FrameFits(frames[k], count)
  {
    Iteration(StepAt(animating, k),
              FrameDrawCalls(RatioAfter(start, frames, k), frames[k], k == 0, count, slots, action),
              if adapters then EventsCalls(frames[k].events, RatioAfter(start, frames, k + 1), count, slots) else [])
  }

  /** The iterations the loop performs for the first `n` frames, in order. */
  function PlannedIterations(frames: seq<Frame>, n: nat, animating: bool, start: int, count: nat,
                             slots: set<Hook>, action: Wrappers.Option<ActionId>, adapters: bool): (its: seq<Iteration>)
    requires n <= |frames| && forall k :: 0 <= k < |frames| ==> FrameFits(frames[k], count)
    ensures |its| == n
  {
    seq(n, k requires 0 <= k < n => PlannedIteration(frames, k, animating, start, count, slots, action, adapters))
  }

  /**
   * An iteration that takes frame `n`'s step, makes its draw invocations
   * under the ratio in force before it and delivers its events under the
   * ratio after it extends the plan for `n` frames to the plan for `n + 1`.
   */
  lemma PlannedIterationsNext(frames: seq<Frame>, n: nat, animating: bool, start: int, count: nat,
                              slots: set<Hook>, action: Wrappers.Option<ActionId>, adapters: bool, it: Iteration)
    requires n < |frames| && forall k :: 0 <= k < |frames| ==> FrameFits(frames[k], count)
    requires FrameFits(frames[n], count)
    requires it.step == StepAt(animating, n)
    requires it.draw == FrameDrawCalls(RatioAfter(start, frames, n), frames[n], n == 0, count, slots, action)
    requires it.events == if adapters then EventsCalls(frames[n].events, RatioAfter(start, frames, n + 1), count, slots) else []
    ensures PlannedIterations(frames, n + 1, animating, start, count, slots, action, adapters) ==
            PlannedIterations(frames, n, animating, start, count, slots, action, adapters) + [it]
  {
  }

  /** What the windowing layer reports while launch_init runs. */
  datatype InitEnv = InitEnv(
    glfwReady: bool,                      // the windowing layer initialised
    videoWidth: nat, videoHeight: nat,    // the primary monitor's video mode
    created: Wrappers.Option<WindowId>,   // the window created, or null
    loaderReady: bool,                    // the GL entry points loaded
    winWidth: nat, winHeight: nat,        // the window size reported after creation
    initCancel: bool)                     // what the init callback answers, if set

  /** The value launch_init returns. */
  function InitStatus(env: InitEnv): (code: int)
    ensures code == EXIT_FAILURE <==> !env.glfwReady || env.created.None?
    ensures code == EXIT_SUCCESS <==> env.glfwReady && env.created.Some? && env.loaderReady
    ensures code == -1 <==> env.glfwReady && env.created.Some? && !env.loaderReady
  {
    if !env.glfwReady then EXIT_FAILURE
    else if env.created.None? then EXIT_FAILURE
    else if !env.loaderReady then -1
    else EXIT_SUCCESS
  }

  /** The size launch_init asks the windowing layer for. */
  function RequestedSize(fullscreen: bool, width: int, height: int, env: InitEnv): (size: (int, int))
    ensures fullscreen ==> size == (env.videoWidth, env.videoHeight)
    ensures !fullscreen ==> size.0 > 0 && size.1 > 0
    ensures !fullscreen && width > 0 ==> size.0 == width
    ensures !fullscreen && width <= 0 ==> size.0 == DefaultWidth
    ensures !fullscreen && height > 0 ==> size.1 == height
    ensures !fullscreen && height <= 0 ==> size.1 == DefaultHeight
  {
    if fullscreen then (env.videoWidth, env.videoHeight)
    else
      var w := if width <= 0 then DefaultWidth else width;
      var h := if height <= 0 then DefaultHeight else height;
      (w, h)
  }

  /** A windowed launch with no size asked for opens a 1280 by 800 window. */
  lemma DefaultWindowSize(env: InitEnv)
    ensures RequestedSize(false, 0, 0, env) == (1280, 800)
  {
  }

  /** How launch ends: with an exit code, or with an exception escaping the frame loop. */
  datatype LaunchResult = Exited(code: int) | Threw

  /** A registered handler. The viewer holds non-owning references to plugins. */
  class ViewerPlugin {
    var name: string
  }

  class Viewer {
    var window: Wrappers.Option<WindowId>
    var isAnimating: bool
    /** The registered plugins; their order is the dispatch order. */
    var plugins: seq<ViewerPlugin>

    // State kept across events.
    var mouseMode: MouseMode
    var currentMouseX: int
    var currentMouseY: int
    var downMouseX: int
    var downMouseY: int
    var down: bool
    var hackNeverMoved: bool
    var scrollPosition: real

    /** The legacy callback slots that are set. */
    var callbacks: set<Hook>
    /** The external draw action, if one was set. */
    var drawAction: Wrappers.Option<ActionId>

    /** The density ratio (a file-level variable of the viewer's source file, initially 1). */
    var highdpi: int
    /** Whether this viewer is the one the native adapters forward to, with its adapters installed. */
    var registered: bool
    /** The native window's should-close flag. */
    var shouldClose: bool

    /** A viewer with no window, no plugins, no callbacks and the mouse at rest; `isAnimating` is left unset. */
    constructor ()
      ensures window == Wrappers.None && plugins == [] && callbacks == {} && drawAction == Wrappers.None
      ensures mouseMode == MouseMode.None && !down && hackNeverMoved && scrollPosition == 0.0
      ensures currentMouseX == 0 && currentMouseY == 0 && downMouseX == 0 && downMouseY == 0
      ensures highdpi == 1 && !registered && !shouldClose
    {
      mouseMode := MouseMode.None;
      currentMouseX, currentMouseY := 0, 0;
      downMouseX, downMouseY := 0, 0;
      plugins := [];
      highdpi := 1;
      registered := false;
      shouldClose := false;
      window := Wrappers.None;
      down := false;
      hackNeverMoved := true;
      scrollPosition := 0.0;
      callbacks := {};
      drawAction := Wrappers.None;
    }

    /** The mouse and scroll state native events change. */
    function PointerOf(): Pointer
      reads this
    {
      Pointer(downMouseX, downMouseY, down, mouseMode, scrollPosition)
    }

    /** setDrawCall: the action given replaces the one before. */
    method SetDrawCall(action: Wrappers.Option<ActionId>)
      modifies this`drawAction
      ensures drawAction == action
    {
      drawAction := action;
    }

    // -----------------------------------------------------------------
    // Dispatch loops

    /** Offers `ev` to the plugins in order, stopping after the first that consumes it. */
    method OfferUntilConsumed(ev: Event, answers: seq<bool>) returns (consumed: bool, calls: seq<Call>)
      requires |answers| == |plugins|
      ensures calls == Stage(ev, answers)
      ensures consumed <==> SomeTrue(answers)
    {
      calls := [];
      for i := 0 to |plugins|
        invariant calls == Offered(ev, i)
        invariant forall j :: 0 <= j < i ==> !answers[j]
      {
        calls := calls + [ToPlugin(i, ev)];
        if answers[i] {
          assert FirstTrue(answers) == i;
          return true, calls;
        }
      }
      assert FirstTrue(answers) == |answers|;
      consumed := false;
    }

    /** Offers `ev` to every plugin in order, whatever each answers. */
    method OfferAll(ev: Event) returns (calls: seq<Call>)
      ensures calls == Offered(ev, |plugins|)
    {
      calls := [];
      for i := 0 to |plugins|
        invariant calls == Offered(ev, i)
      {
        calls := calls + [ToPlugin(i, ev)];
      }
    }

    /** Chain-with-fallback: the plugins until one consumes, then the legacy callback if none did. */
    method RunChain(ev: Event, reply: Reply) returns (consumed: bool, calls: seq<Call>)
      requires |reply.answers| == |plugins|
      ensures Outcome(calls, consumed) == ChainWithFallback(ev, reply.answers, ev.hook in callbacks, reply.callback)
    {
      consumed, calls := OfferUntilConsumed(ev, reply.answers);
      if !consumed && ev.hook in callbacks {
        calls := calls + [ToSlot(ev)];
        consumed := reply.callback;
      }
    }

    // -----------------------------------------------------------------
    // Key events

    method KeyPressed(key: UInt, modifiers: int, reply: Reply) returns (consumed: bool, calls: seq<Call>)
      requires |reply.answers| == |plugins|
      ensures Outcome(calls, consumed) ==
              ChainWithFallback(Event(Hook.KeyPressed, Key(key, modifiers)), reply.answers,
                                Hook.KeyPressed in callbacks, reply.callback)
    {
      consumed, calls := RunChain(Event(Hook.KeyPressed, Key(key, modifiers)), reply);
    }

    method KeyDown(key: int, modifiers: int, reply: Reply) returns (consumed: bool, calls: seq<Call>)
      requires |reply.answers| == |plugins|
      ensures Outcome(calls, consumed) ==
              ChainWithFallback(Event(Hook.KeyDown, Key(key, modifiers)), reply.answers,
                                Hook.KeyDown in callbacks, reply.callback)
    {
      consumed, calls := RunChain(Event(Hook.KeyDown, Key(key, modifiers)), reply);
    }

    method KeyUp(key: int, modifiers: int, reply: Reply) returns (consumed: bool, calls: seq<Call>)
      requires |reply.answers| == |plugins|
      ensures Outcome(calls, consumed) ==
              ChainWithFallback(Event(Hook.KeyUp, Key(key, modifiers)), reply.answers,
                                Hook.KeyUp in callbacks, reply.callback)
    {
      consumed, calls := RunChain(Event(Hook.KeyUp, Key(key, modifiers)), reply);
    }

    method KeyRepeat(key: int, modifiers: int, reply: Reply) returns (consumed: bool, calls: seq<Call>)
      requires |reply.answers| == |plugins|
      ensures Outcome(calls, consumed) ==
              ChainWithFallback(Event(Hook.KeyRepeat, Key(key, modifiers)), reply.answers,
                                Hook.KeyRepeat in callbacks, reply.callback)
    {
      consumed, calls := RunChain(Event(Hook.KeyRepeat, Key(key, modifiers)), reply);
    }

    // -----------------------------------------------------------------
    // Mouse events

    /**
     * Records the mouse position as the down position even when a plugin or
     * the callback consumes the press; only an unconsumed press marks the
     * button held and enters rotation mode. Always reports handled.
     */
    method MouseDown(button: MouseButton, modifier: int, reply: Reply) returns (handled: bool, calls: seq<Call>)
      requires |reply.answers| == |plugins|
      modifies this`downMouseX, this`downMouseY, this`down, this`mouseMode
      ensures downMouseX == currentMouseX && downMouseY == currentMouseY
      ensures var o := ChainWithFallback(Event(Hook.MouseDown, Button(ButtonCode(button), modifier)), reply.answers,
                                         Hook.MouseDown in callbacks, reply.callback);
              && calls == o.calls
              && (o.consumed ==> down == old(down) && mouseMode == old(mouseMode))
              && (!o.consumed ==> down && mouseMode == Rotation)
      ensures handled
    {
      downMouseX := currentMouseX;
      downMouseY := currentMouseY;
      var consumed;
      consumed, calls := RunChain(Event(Hook.MouseDown, Button(ButtonCode(button), modifier)), reply);
      if !consumed {
        down := true;
        mouseMode := Rotation;
      }
      handled := true;
    }

    /**
     * Releases the button before dispatch, consumed or not; only an
     * unconsumed release leaves the interaction mode. Always reports handled.
     */
    method MouseUp(button: MouseButton, modifier: int, reply: Reply) returns (handled: bool, calls: seq<Call>)
      requires |reply.answers| == |plugins|
      modifies this`down, this`mouseMode
      ensures !down
      ensures var o := ChainWithFallback(Event(Hook.MouseUp, Button(ButtonCode(button), modifier)), reply.answers,
                                         Hook.MouseUp in callbacks, reply.callback);
              && calls == o.calls
              && (o.consumed ==> mouseMode == old(mouseMode))
              && (!o.consumed ==> mouseMode == MouseMode.None)
      ensures handled
    {
      down := false;
      var consumed;
      consumed, calls := RunChain(Event(Hook.MouseUp, Button(ButtonCode(button), modifier)), reply);
      if !consumed {
        mouseMode := MouseMode.None;
      }
      handled := true;
    }

    /** Dispatches the move and changes no viewer state. Always reports handled. */
    method MouseMove(mouseX: int, mouseY: int, reply: Reply) returns (handled: bool, calls: seq<Call>)
      requires |reply.answers| == |plugins|
      ensures calls == ChainWithFallback(Event(Hook.MouseMove, Position(mouseX, mouseY)), reply.answers,
                                         Hook.MouseMove in callbacks, reply.callback).calls
      ensures handled
    {
      var consumed;
      consumed, calls := RunChain(Event(Hook.MouseMove, Position(mouseX, mouseY)), reply);
      handled := true;
    }

    /** Adds the delta to the scroll position before dispatch, consumed or not. Always reports handled. */
    method MouseScroll(deltaY: real, reply: Reply) returns (handled: bool, calls: seq<Call>)
      requires |reply.answers| == |plugins|
      modifies this`scrollPosition
      ensures scrollPosition == old(scrollPosition) + deltaY
      ensures calls == ChainWithFallback(Event(Hook.MouseScroll, Scroll(deltaY)), reply.answers,
                                         Hook.MouseScroll in callbacks, reply.callback).calls
      ensures handled
    {
      scrollPosition := scrollPosition + deltaY;
      var consumed;
      consumed, calls := RunChain(Event(Hook.MouseScroll, Scroll(deltaY)), reply);
      handled := true;
    }

    // -----------------------------------------------------------------
    // Resize and draw

    /** post_resize is a broadcast: every plugin in order, then the callback if set. */
    method PostResize(w: int, h: int) returns (calls: seq<Call>)
      ensures calls == Broadcast(Event(Hook.PostResize, Size(w, h)), |plugins|, Hook.PostResize in callbacks)
    {
      var ev := Event(Hook.PostResize, Size(w, h));
      calls := OfferAll(ev);
      if Hook.PostResize in callbacks {
        calls := calls + [ToSlot(ev)];
      }
    }

    /**
     * One draw stage: the plugins' hook for `ev` until the first that
     * answers `true`, then the legacy callback for it if set; the callback's
     * answer is ignored.
     */
    method RunDrawStage(ev: Event, answers: seq<bool>) returns (calls: seq<Call>)
      requires |answers| == |plugins|
      ensures calls == DrawStage(ev, answers, ev.hook in callbacks)
    {
      var _, stage := OfferUntilConsumed(ev, answers);
      calls := stage;
      if ev.hook in callbacks {
        calls := calls + [ToSlot(ev)];
      }
    }

    /**
     * One frame. First the density ratio is re-derived from the framebuffer
     * and window widths; when it differs from the stored one, a resize with
     * the framebuffer size is broadcast and then the ratio stored. Then the
     * pre-draw stage, the draw action and the post-draw stage run. With no
     * draw action set, calling it throws (`completed` is false) and the
     * post-draw stage does not run.
     */
    method Draw(first: bool, fbWidth: nat, fbHeight: nat, winWidth: nat, preAnswers: seq<bool>, postAnswers: seq<bool>)
      returns (completed: bool, calls: seq<Call>)
      requires |preAnswers| == |plugins| && |postAnswers| == |plugins|
      modifies this`highdpi
      ensures highdpi == Dpi.Observed(old(highdpi), fbWidth, winWidth)
      ensures completed <==> drawAction.Some?
      ensures calls == FrameDrawCalls(old(highdpi), Frame(fbWidth, fbHeight, winWidth, preAnswers, postAnswers, []),
                                      first, |plugins|, callbacks, drawAction)
    {
      var ratio := if winWidth == 0 || fbWidth == 0 then highdpi else fbWidth / winWidth;
      var resize: seq<Call> := [];
      if ratio != highdpi {
        resize := PostResize(fbWidth, fbHeight);
        highdpi := ratio;
      }

      var pre := RunDrawStage(Event(Hook.PreDraw, FirstFrame(first)), preAnswers);
      if drawAction.None? {
        return false, resize + pre;
      }
      var post := RunDrawStage(Event(Hook.PostDraw, FirstFrame(first)), postAnswers);
      calls := resize + (pre + ([ToDrawAction(drawAction.value)] + post));
      completed := true;
    }

    // -----------------------------------------------------------------
    // Initialisation and shutdown

    method InitPlugins() returns (calls: seq<Call>)
      ensures calls == Offered(Event(Hook.Init, NoArgs), |plugins|)
    {
      calls := OfferAll(Event(Hook.Init, NoArgs));
    }

    method ShutdownPlugins() returns (calls: seq<Call>)
      ensures calls == Offered(Event(Hook.Shutdown, NoArgs), |plugins|)
    {
      calls := OfferAll(Event(Hook.Shutdown, NoArgs));
    }

    /** init(): the init callback, if set, may cancel the initialisation of the plugins. */
    method Init(cancel: bool) returns (calls: seq<Call>)
      ensures calls == InitCalls(|plugins|, Hook.Init in callbacks, cancel)
    {
      calls := [];
      if Hook.Init in callbacks {
        calls := [ToSlot(Event(Hook.Init, NoArgs))];
        if cancel {
          return;
        }
      }
      var initialised := InitPlugins();
      calls := calls + initialised;
    }

    /**
     * launch_shut: every plugin is shut down in order. It has no
     * precondition: it may be called after a failed start-up, and again.
     * The window handle is left as it was.
     */
    method LaunchShut() returns (calls: seq<Call>)
      ensures calls == Offered(Event(Hook.Shutdown, NoArgs), |plugins|)
    {
      calls := ShutdownPlugins();
    }

    // -----------------------------------------------------------------
    // Native adapters

    /** glfw_mouse_press: maps the native button and sends a press to mouse_down, anything else to mouse_up. */
    method GlfwMousePress(button: int, action: int, modifier: int, reply: Reply) returns (calls: seq<Call>)
      requires |reply.answers| == |plugins|
      modifies this`downMouseX, this`downMouseY, this`down, this`mouseMode
      ensures var hook := if action == GLFW_PRESS then Hook.MouseDown else Hook.MouseUp;
              var o := ChainWithFallback(Event(hook, Button(ButtonCode(ButtonFromGlfw(button)), modifier)),
                                         reply.answers, hook in callbacks, reply.callback);
              && calls == o.calls
              && (action == GLFW_PRESS ==>
                    && downMouseX == currentMouseX && downMouseY == currentMouseY
                    && (o.consumed ==> down == old(down) && mouseMode == old(mouseMode))
                    && (!o.consumed ==> down && mouseMode == Rotation))
              && (action != GLFW_PRESS ==>
                    && downMouseX == old(downMouseX) && downMouseY == old(downMouseY) && !down
                    && (o.consumed ==> mouseMode == old(mouseMode))
                    && (!o.consumed ==> mouseMode == MouseMode.None))
    {
      var mb := ButtonFromGlfw(button);
      var handled;
      if action == GLFW_PRESS {
        handled, calls := MouseDown(mb, modifier, reply);
      } else {
        handled, calls := MouseUp(mb, modifier, reply);
      }
    }

    /**
     * glfw_key_callback: an Escape press sets the window's should-close flag
     * whatever the dispatch returns; press, release and repeat go to
     * key_down, key_up and key_repeat, any other action to nothing.
     */
    method GlfwKey(key: int, action: int, modifier: int, reply: Reply) returns (calls: seq<Call>)
      requires |reply.answers| == |plugins|
      modifies this`shouldClose
      ensures shouldClose == (old(shouldClose) || (key == GLFW_KEY_ESCAPE && action == GLFW_PRESS))
      ensures KeyHook(action).None? ==> calls == []
      ensures KeyHook(action).Some? ==>
                calls == ChainWithFallback(Event(KeyHook(action).value, Key(key, modifier)), reply.answers,
                                           KeyHook(action).value in callbacks, reply.callback).calls
    {
      if key == GLFW_KEY_ESCAPE && action == GLFW_PRESS {
        shouldClose := true;
      }
      var consumed;
      calls := [];
      if action == GLFW_PRESS {
        consumed, calls := KeyDown(key, modifier, reply);
      } else if action == GLFW_RELEASE {
        consumed, calls := KeyUp(key, modifier, reply);
      } else if action == GLFW_REPEAT {
        consumed, calls := KeyRepeat(key, modifier, reply);
      }
    }

    /** glfw_char_mods_callback: the character goes to key_pressed. */
    method GlfwCharMods(codepoint: UInt, modifier: int, reply: Reply) returns (calls: seq<Call>)
      requires |reply.answers| == |plugins|
      ensures calls == ChainWithFallback(Event(Hook.KeyPressed, Key(codepoint, modifier)), reply.answers,
                                         Hook.KeyPressed in callbacks, reply.callback).calls
    {
      var consumed;
      consumed, calls := KeyPressed(codepoint, modifier, reply);
    }

    /** glfw_window_size: the window size scaled by the density ratio is broadcast as a resize. */
    method GlfwWindowSize(width: int, height: int) returns (calls: seq<Call>)
      ensures calls == Broadcast(Event(Hook.PostResize, Size(width * highdpi, height * highdpi)),
                                 |plugins|, Hook.PostResize in callbacks)
    {
      calls := PostResize(width * highdpi, height * highdpi);
    }

    /** glfw_mouse_move: the cursor position scaled by the density ratio goes to mouse_move. */
    method GlfwMouseMove(x: int, y: int, reply: Reply) returns (calls: seq<Call>)
      requires |reply.answers| == |plugins|
      ensures calls == ChainWithFallback(Event(Hook.MouseMove, Position(x * highdpi, y * highdpi)), reply.answers,
                                         Hook.MouseMove in callbacks, reply.callback).calls
    {
      var handled;
      handled, calls := MouseMove(x * highdpi, y * highdpi, reply);
    }

    /** glfw_mouse_scroll: the vertical offset goes to mouse_scroll. */
    method GlfwMouseScroll(dx: real, dy: real, reply: Reply) returns (calls: seq<Call>)
      requires |reply.answers| == |plugins|
      modifies this`scrollPosition
      ensures scrollPosition == old(scrollPosition) + dy
      ensures calls == ChainWithFallback(Event(Hook.MouseScroll, Scroll(dy)), reply.answers,
                                         Hook.MouseScroll in callbacks, reply.callback).calls
    {
      var handled;
      handled, calls := MouseScroll(dy, reply);
    }

    /**
     * Routes one native event to the adapter installed for it: the adapter's
     * invocations are made, its effect on the pointer state happens, and a
     * close request or an Escape press sets the should-close flag.
     */
    method Deliver(e: NativeEvent) returns (calls: seq<Call>)
      requires Fits(e, |plugins|)
      modifies this`downMouseX, this`downMouseY, this`down, this`mouseMode, this`scrollPosition, this`shouldClose
      ensures shouldClose == (old(shouldClose) || Closes(e, true))
      ensures calls == AdapterCalls(e, highdpi, |plugins|, callbacks)
      ensures PointerOf() == AdapterPointer(e, old(PointerOf()), currentMouseX, currentMouseY, callbacks)
    {
      calls := [];
      match e
      case KeyInput(key, action, mods, reply) =>
        calls := GlfwKey(key, action, mods, reply);
      case CharInput(codepoint, mods, reply) =>
        calls := GlfwCharMods(codepoint, mods, reply);
      case MouseButtonInput(button, action, mods, reply) =>
        calls := GlfwMousePress(button, action, mods, reply);
      case CursorInput(x, y, reply) =>
        calls := GlfwMouseMove(x, y, reply);
      case ScrollInput(dx, dy, reply) =>
        calls := GlfwMouseScroll(dx, dy, reply);
      case WindowSizeInput(width, height) =>
        calls := GlfwWindowSize(width, height);
      case DropInput =>
      case CloseRequest =>
        shouldClose := true;
    }

    /**
     * The events delivered while the frame loop polls or waits, in order.
     * When the viewer's adapters are not installed, only a close request
     * has an effect: it reaches the window.
     */
    method ProcessEvents(events: seq<NativeEvent>) returns (calls: seq<Call>)
      requires forall j :: 0 <= j < |events| ==> Fits(events[j], |plugins|)
      modifies this`downMouseX, this`downMouseY, this`down, this`mouseMode, this`scrollPosition, this`shouldClose
      ensures shouldClose == (old(shouldClose) || SomeCloses(events, registered))
      ensures registered ==>
                && calls == EventsCalls(events, highdpi, |plugins|, callbacks)
                && PointerOf() == EventsPointer(events, old(PointerOf()), currentMouseX, currentMouseY, callbacks)
      ensures !registered ==> calls == [] && PointerOf() == old(PointerOf())
    {
      calls := [];
      for i := 0 to |events|
        invariant shouldClose == (old(shouldClose) || exists j :: 0 <= j < i && Closes(events[j], registered))
        invariant registered ==>
                    && calls == EventsCalls(events[..i], highdpi, |plugins|, callbacks)
                    && PointerOf() == EventsPointer(events[..i], old(PointerOf()), currentMouseX, currentMouseY, callbacks)
        invariant !registered ==> calls == [] && PointerOf() == old(PointerOf())
      {
        assert events[..i + 1][..i] == events[..i];
        if registered {
          var delivered := Deliver(events[i]);
          calls := calls + delivered;
        } else if events[i].CloseRequest? {
          shouldClose := true;
        }
      }
      assert events[..|events|] == events;
    }

    // -----------------------------------------------------------------
    // Lifecycle

    /**
     * One pass of the frame loop's body: draw the frame, then deliver the
     * events that arrive while the loop polls or waits. When draw throws,
     * no events are delivered.
     */
    method RenderFrame(first: bool, frame: Frame) returns (completed: bool, drawn: seq<Call>, delivered: seq<Call>)
      requires FrameFits(frame, |plugins|)
      modifies this`highdpi, this`downMouseX, this`downMouseY, this`down, this`mouseMode
      modifies this`scrollPosition, this`shouldClose
      ensures highdpi == Dpi.Observed(old(highdpi), frame.fbWidth, frame.winWidth)
      ensures drawn == FrameDrawCalls(old(highdpi), frame, first, |plugins|, callbacks, drawAction)
      ensures completed <==> drawAction.Some?
      ensures !completed ==> delivered == [] && PointerOf() == old(PointerOf()) && shouldClose == old(shouldClose)
      ensures completed ==> shouldClose == (old(shouldClose) || SomeCloses(frame.events, registered))
      ensures completed && registered ==>
                && delivered == EventsCalls(frame.events, highdpi, |plugins|, callbacks)
                && PointerOf() == EventsPointer(frame.events, old(PointerOf()), currentMouseX, currentMouseY, callbacks)
      ensures completed && !registered ==> delivered == [] && PointerOf() == old(PointerOf())
    {
      completed, drawn := Draw(first, frame.fbWidth, frame.fbHeight, frame.winWidth, frame.preDraw, frame.postDraw);
      delivered := [];
      if completed {
        delivered := ProcessEvents(frame.events);
      }
    }

    /**
     * The `i`-th pass of launch_rendering's loop: the frame's draw and event
     * delivery (RenderFrame) followed by the scheduling step. `start` is the
     * density ratio the loop began with.
     */
    method LoopPass(frames: seq<Frame>, i: nat, counter: nat, ghost start: int, ghost origin: Pointer)
      returns (completed: bool, it: Iteration)
      requires i < |frames| && forall k :: 0 <= k < |frames| ==> FrameFits(frames[k], |plugins|)
      requires highdpi == RatioAfter(start, frames, i)
      requires counter == CounterAfter(isAnimating, i)
      requires registered ==> PointerOf() == FramesPointer(frames, i, origin, currentMouseX, currentMouseY, callbacks)
      modifies this`highdpi, this`downMouseX, this`downMouseY, this`down, this`mouseMode
      modifies this`scrollPosition, this`shouldClose
      ensures highdpi == RatioAfter(start, frames, i + 1)
      ensures completed <==> drawAction.Some?
      ensures !completed && i == 0 ==> it.draw == FrameDrawCalls(start, frames[0], true, |plugins|, callbacks, drawAction)
      ensures completed ==> it.step.counter == CounterAfter(isAnimating, i + 1)
      ensures completed ==>
                PlannedIterations(frames, i + 1, isAnimating, start, |plugins|, callbacks, drawAction, registered) ==
                PlannedIterations(frames, i, isAnimating, start, |plugins|, callbacks, drawAction, registered) + [it]
      ensures completed ==> shouldClose == (old(shouldClose) || SomeCloses(frames[i].events, registered))
      ensures completed && registered ==>
                PointerOf() == FramesPointer(frames, i + 1, origin, currentMouseX, currentMouseY, callbacks)
      ensures !completed || !registered ==> PointerOf() == old(PointerOf())
      ensures !completed ==> shouldClose == old(shouldClose)
    {
      var frame := frames[i];
      var drawn, delivered;
      completed, drawn, delivered := RenderFrame(i == 0, frame);
      assert highdpi == RatioAfter(start, frames, i + 1);
      var step := Next(isAnimating, counter);
      assert step == StepAt(isAnimating, i);
      it := Iteration(step, drawn, delivered);
      if completed {
        PlannedIterationsNext(frames, i, isAnimating, start, |plugins|, callbacks, drawAction, registered, it);
      }
    }

    /**
     * launch_rendering: draws a frame, then polls or waits for events, until
     * the window's should-close flag is set; with `loop` false after one
     * iteration. An exception from the draw action ends the loop (`threw`);
     * `thrown` is what the throwing draw invoked before it threw.
     */
    method LaunchRendering(loop: bool, frames: seq<Frame>)
      returns (iterations: seq<Iteration>, threw: bool, thrown: seq<Call>)
      requires forall k :: 0 <= k < |frames| ==> FrameFits(frames[k], |plugins|)
      requires shouldClose || |frames| > 0
      requires loop && !shouldClose && drawAction.Some? ==> ClosingFrame(frames, registered) < |frames|
      modifies this`highdpi, this`downMouseX, this`downMouseY, this`down, this`mouseMode
      modifies this`scrollPosition, this`shouldClose
      ensures |iterations| <= |frames|
      ensures iterations == PlannedIterations(frames, |iterations|, isAnimating, old(highdpi), |plugins|,
                                              callbacks, drawAction, registered)
      ensures !threw ==> highdpi == RatioAfter(old(highdpi), frames, |iterations|) && thrown == []
      ensures registered ==>
                PointerOf() == EventsPointer(EventsUpTo(frames, |iterations|), old(PointerOf()),
                                             currentMouseX, currentMouseY, callbacks)
      ensures !registered ==> PointerOf() == old(PointerOf())
      ensures threw <==> !old(shouldClose) && drawAction.None?
      ensures threw ==>
                && highdpi == RatioAfter(old(highdpi), frames, 1)
                && thrown == FrameDrawCalls(old(highdpi), frames[0], true, |plugins|, callbacks, drawAction)
      ensures threw || old(shouldClose) ==> iterations == []
      ensures !loop && !threw && !old(shouldClose) ==> |iterations| == 1
      ensures loop && !threw && !old(shouldClose) ==>
                shouldClose && |iterations| == ClosingFrame(frames, registered) + 1
    {
      iterations := [];
      threw := false;
      thrown := [];
      ghost var start, origin := highdpi, PointerOf();
      ghost var stop := ClosingFrame(frames, registered);
      var frameCounter := 0;
      var i := 0;
      while !shouldClose && !threw && (loop || i == 0)
        invariant 0 <= i <= |frames|
        invariant |iterations| == i
        invariant !loop ==> i <= 1
        invariant frameCounter == CounterAfter(isAnimating, i)
        invariant threw ==>
                    && i == 0 && drawAction.None? && !old(shouldClose)
                    && highdpi == RatioAfter(start, frames, 1)
                    && thrown == FrameDrawCalls(start, frames[0], true, |plugins|, callbacks, drawAction)
        invariant !threw ==> highdpi == RatioAfter(start, frames, i) && thrown == []
        invariant iterations == PlannedIterations(frames, i, isAnimating, start, |plugins|,
                                                  callbacks, drawAction, registered)
        invariant registered ==>
                    PointerOf() == FramesPointer(frames, i, origin, currentMouseX, currentMouseY, callbacks)
        invariant !registered ==> PointerOf() == origin
        invariant i == 0 ==> shouldClose == old(shouldClose)
        invariant i > 0 ==> drawAction.Some? && !old(shouldClose)
        invariant i > 0 ==> i - 1 <= stop && (shouldClose <==> i - 1 == stop)
        decreases |frames| - i, if threw then 0 else 1
      {
        var completed, it := LoopPass(frames, i, frameCounter, start, origin);
        ClosingFrameAt(frames, registered, i);
        if completed {
          frameCounter := it.step.counter;
          iterations := iterations + [it];
          i := i + 1;
        } else {
          threw := true;
          thrown := it.draw;
        }
      }
      FramesPointerFlattens(frames, i, origin, currentMouseX, currentMouseY, callbacks);
    }

    /**
     * launch_init: creates the window (the video mode's size in fullscreen,
     * 1280 by 800 in place of a non-positive windowed size), loads the GL
     * entry points, installs the adapters, derives the density ratio, issues
     * one resize and runs init(). Failures are reported by the return value.
     * A new window has no adapters until they are installed on it.
     */
    method LaunchInit(resizable: bool, fullscreen: bool, maximize: bool, name: string,
                      width: int, height: int, env: InitEnv)
      returns (code: int, size: (int, int), calls: seq<Call>)
      requires env.glfwReady && env.created.Some? && env.loaderReady ==> env.winWidth > 0
      modifies this`window, this`shouldClose, this`highdpi, this`registered
      ensures code == InitStatus(env)
      ensures !env.glfwReady ==> window == old(window) && shouldClose == old(shouldClose)
      ensures env.glfwReady ==> size == RequestedSize(fullscreen, width, height, env) && window == env.created
      ensures env.glfwReady && env.created.Some? ==> !shouldClose
      ensures !env.glfwReady ==> registered == old(registered)
      ensures code != EXIT_SUCCESS ==> calls == [] && highdpi == old(highdpi)
      ensures env.glfwReady && code != EXIT_SUCCESS ==> !registered
      ensures code == EXIT_SUCCESS ==>
                && registered
                && highdpi == size.0 / env.winWidth
                && calls == Broadcast(Event(Hook.PostResize, Size(env.winWidth * highdpi, env.winHeight * highdpi)),
                                      |plugins|, Hook.PostResize in callbacks) +
                            InitCalls(|plugins|, Hook.Init in callbacks, env.initCancel)
    {
      calls := [];
      size := (width, height);
      if !env.glfwReady {
        return EXIT_FAILURE, size, calls;
      }
      if fullscreen {
        size := (env.videoWidth, env.videoHeight);
      } else {
        var w, h := width, height;
        if w <= 0 {
          w := DefaultWidth;
        }
        if h <= 0 {
          h := DefaultHeight;
        }
        size := (w, h);
      }
      window := env.created;
      registered := false;
      if env.created.None? {
        return EXIT_FAILURE, size, calls;
      }
      shouldClose := false;
      if !env.loaderReady {
        return -1, size, calls;
      }
      registered := true;
      highdpi := size.0 / env.winWidth;
      calls := GlfwWindowSize(env.winWidth, env.winHeight);
      var initCalls := Init(env.initCancel);
      calls := calls + initCalls;
      code := EXIT_SUCCESS;
    }

    /**
     * launch: start-up, the frame loop, shutdown. Only a start-up result equal
     * to EXIT_FAILURE counts as failure (and is followed by shutdown); an
     * exception from the frame loop leaves launch without shutting down.
     */
    method Launch(resizable: bool, fullscreen: bool, maximize: bool, name: string,
                  width: int, height: int, env: InitEnv, frames: seq<Frame>)
      returns (result: LaunchResult, shut: bool)
      requires env.glfwReady && env.created.Some? && env.loaderReady ==> env.winWidth > 0
      requires forall k :: 0 <= k < |frames| ==> FrameFits(frames[k], |plugins|)
      requires InitStatus(env) != EXIT_FAILURE ==> |frames| > 0
      requires InitStatus(env) != EXIT_FAILURE && drawAction.Some? ==>
                 ClosingFrame(frames, InitStatus(env) == EXIT_SUCCESS) < |frames|
      modifies this`window, this`shouldClose, this`highdpi, this`registered
      modifies this`downMouseX, this`downMouseY, this`down, this`mouseMode, this`scrollPosition
      ensures InitStatus(env) == EXIT_FAILURE ==> result == Exited(EXIT_FAILURE) && shut
      ensures InitStatus(env) != EXIT_FAILURE && drawAction.Some? ==> result == Exited(EXIT_SUCCESS) && shut
      ensures InitStatus(env) != EXIT_FAILURE && drawAction.None? ==> result == Threw && !shut
    {
      var code, _, _ := LaunchInit(resizable, fullscreen, maximize, name, width, height, env);
      if code == EXIT_FAILURE {
        var _ := LaunchShut();
        return Exited(EXIT_FAILURE), true;
      }
      var _, threw, _ := LaunchRendering(true, frames);
      if threw {
        return Threw, false;
      }
      var _ := LaunchShut();
      return Exited(EXIT_SUCCESS), true;
    }
  }
}

=== FILE: Wrappers.dfy ===
/** An optional value: a slot that may be empty, a handle that may be null. */
module Wrappers {

  datatype Option<+T> = None | Some(value: T)
}
